=== FILE: README.md ===
# ImageLibrary core in Dafny

A model of the logic inside ImageLibrary, a Swing image browser. Almost all of
that logic sits in UI classes. This project lifts out the pure rules and treats
Swing, the image codec, the metadata library and the filesystem as inputs.

- **Preview panel** (`ImagePreviewPanel`). A decoded image is a pixel grid
  `seq<seq<RGB>>` with a real-valued zoom. Modelled here:
  - the brightness, contrast and saturation adjustment, with Java's `(int)`
    truncation;
  - the crop gesture (press, drag, release, cancel) and the mapping of a
    display rectangle to source pixels;
  - the crop itself, fit-to-container zoom and zoom in/out;
  - the save format;
  - the path→description map with its two loaders.
- **Image table** (`ImageTablePanel`):
  - which cells are editable;
  - the numeric filter;
  - the rename rule behind the name column;
  - the date edit;
  - the rows and `originalNames` built for a folder, sorted stably by
    modification time.
- **Folder explorer** (`FolderExplorerPanel`):
  - tree construction with the folders-only filter;
  - renaming the first matching node in depth-first (post-order) enumeration;
  - the toggle;
  - the selection rule for `currentFolder`.
- **Metadata** (`MetadataEditor`, `ImageInfo`). An EXIF directory is a
  `map<Tag, Value>`. The library's metadata object is absent, JPEG-wrapped or
  TIFF. Modelled here:
  - `updateMetadata`, `readDescription` and `writeDescription`;
  - the capture-date extraction;
  - the `yyyy:MM:dd HH:mm:ss` layout, which is the DateTime layout of section
    8 of TIFF 6.0. It is shared with the table's `yyyy-MM-dd HH:mm:ss`.
- **Analyzer** (`ImageAnalyzer`): the dotted-extension test and the folder and
  file filters. Decoding is an abstract field of each entry.
- **FileNode**: the tree's user object.

What a directory listing, `exists`, `renameTo`, `ImageIO.read` or
`Imaging.getMetadata` would answer is part of each operation's input. The
module `Fs` holds these answers as an `Entry` tree.

The table's private `isImageFile` (src/main/java/imageLibrary/ui/ImageTablePanel.java:528-537) has the same body as the
explorer's, so both are `FileNames.IsImageFile`.

Three consequences of the code are worth knowing:

- `loadDescriptionsFromDisk` is a `putAll`, so the value on disk overwrites the
  in-memory one for a path both hold (`Descriptions.DiskValueWins`).
- A write followed by a read of the description never returns the text.
  `readDescription`'s cast fails for JPEG metadata, and the field is written
  as bytes, which `getStringValue` rejects (`Exif.WrittenDescriptionNotReadBack`).
- Typing only the stem of a file name ("photo" for "photo.jpg") re-appends the
  extension. The target then already exists, so the rename is refused
  (`ImageTable.StemRenameRefused`).

## Model

| member | source | states |
|---|---|---|
| Pixels.Clamp | src/main/java/imageLibrary/ui/ImagePreviewPanel.java:589-591 | The result is in [0,255]; an in-range input is returned as is, anything below 0 gives 0 and anything above 255 gives 255. |
| Pixels.TruncToInt | src/main/java/imageLibrary/ui/ImagePreviewPanel.java:552 | The `(int)` cast truncates toward zero: for non-negative x the result is the largest integer not above x, for negative x the smallest not below it. |
| Pixels.ContrastFactor | src/main/java/imageLibrary/ui/ImagePreviewPanel.java:551 | Over the slider range [-100,100] the contrast factor is positive, and it is exactly 1 at contrast 0. |
| Pixels.AdjustPixel | src/main/java/imageLibrary/ui/ImagePreviewPanel.java:545-563 | Every channel of an adjusted pixel lies in [0,255] for any brightness and saturation and for contrast in the slider range [-100,100]. |
| Pixels.Adjust | src/main/java/imageLibrary/ui/ImagePreviewPanel.java:539-568 | The adjusted buffer has the same height and the same width on every row, and every channel of every pixel is in [0,255]. |
| Pixels.ContrastZeroKeeps | src/main/java/imageLibrary/ui/ImagePreviewPanel.java:551-554 | With contrast 0 the contrast step returns an in-range channel unchanged. |
| Pixels.BrightnessOnly | src/main/java/imageLibrary/ui/ImagePreviewPanel.java:547-556 | With contrast 0 and saturation 0 each channel becomes exactly clamp(channel + brightness). |
| Pixels.AdjustZeroIsIdentity | src/main/java/imageLibrary/ui/ImagePreviewPanel.java:539-568 | All-zero parameters return a pixel-identical copy of a valid image. |
| Pixels.BrightenGrayExample | src/main/java/imageLibrary/ui/ImagePreviewPanel.java:547-554 | Mid-gray 128 brightened by 50 becomes 178 on every channel, and 178 with no adjustment stays 178. |
| Pixels.ApplyAdjustments | src/main/java/imageLibrary/ui/ImagePreviewPanel.java:543-565 | The nested loops fill each pixel (x,y) with the adjusted original pixel (x,y), which is the whole-buffer Adjust. |
| Cropping.DragRect | src/main/java/imageLibrary/ui/ImagePreviewPanel.java:322-332 | The dragged rectangle has non-negative extent, its corner is the minimum of the press and cursor coordinates, and it spans exactly from one to the other on each axis. |
| Cropping.DragRectSymmetric | src/main/java/imageLibrary/ui/ImagePreviewPanel.java:327-332 | Swapping the press point and the cursor gives the same rectangle. |
| Cropping.ToSource | src/main/java/imageLibrary/ui/ImagePreviewPanel.java:382-393 | The mapped region lies inside the image. There is no region exactly when an unzoomed extent is not positive or the unzoomed corner is at or past the far edge. The corner is the unzoomed corner clamped at 0, and each extent is the unzoomed one unless cut at the image edge. |
| Cropping.ToSourceUnitZoom | src/main/java/imageLibrary/ui/ImagePreviewPanel.java:382-393 | At zoom 1 a selection already inside the image maps to itself. |
| Cropping.ToSourceShiftsNegativeCorner | src/main/java/imageLibrary/ui/ImagePreviewPanel.java:388-391 | A selection starting above-left of the image is moved to (0,0) with its extent kept, not clipped. |
| Cropping.Crop | src/main/java/imageLibrary/ui/ImagePreviewPanel.java:395-397 | The cropped buffer is width×height and pixel (i,j) is the old pixel (y+i, x+j); a valid image stays valid. |
| Cropping.CropWholeImage | src/main/java/imageLibrary/ui/ImagePreviewPanel.java:395-397 | Cropping to the whole image gives the image back. |
| Cropping.CropTwice | src/main/java/imageLibrary/ui/ImagePreviewPanel.java:395-397 | A crop of a crop is one crop at the summed offset. |
| Preview.InitialPanel | src/main/java/imageLibrary/ui/ImagePreviewPanel.java:66-75 | A new panel has no image, no current file, zoom 1.0, no cropping or selection, no descriptions and an empty description text. |
| Preview.StartCropping | src/main/java/imageLibrary/ui/ImagePreviewPanel.java:301-309 | With no image nothing changes; otherwise cropping starts with no start point and no rectangle, and image and zoom are kept. |
| Preview.MousePressed | src/main/java/imageLibrary/ui/ImagePreviewPanel.java:315-319 | While cropping, a press records the point and an empty rectangle there; outside cropping it is ignored. |
| Preview.MouseDragged | src/main/java/imageLibrary/ui/ImagePreviewPanel.java:322-335 | Once a start point exists, the rectangle's corner is the minimum of the start and cursor coordinates, and its width and height are the absolute cursor offsets from the start. Without a start point nothing changes. |
| Preview.Cleanup | src/main/java/imageLibrary/ui/ImagePreviewPanel.java:358-373 | Cropping ends, and the start point and rectangle stay as they were. |
| Preview.CancelCropping | src/main/java/imageLibrary/ui/ImagePreviewPanel.java:175-178 | Cropping ends and the start point and rectangle are cleared. |
| Preview.ApplyCrop | src/main/java/imageLibrary/ui/ImagePreviewPanel.java:378-413 | With no rectangle or no image nothing changes. Otherwise the selection is cleared even when the mapped region is empty; a non-empty region replaces the image by its pixels and resets zoom to 1.0. |
| Preview.MouseReleased | src/main/java/imageLibrary/ui/ImagePreviewPanel.java:338-343 | Cropping is off afterwards; a crop is attempted only when the rectangle exceeds 10 on both sides. |
| Preview.GestureKeepsReady | src/main/java/imageLibrary/ui/ImagePreviewPanel.java:301-343 | Every gesture step keeps the zoom positive and the image well-formed. |
| Preview.ShortDragKeepsImage | src/main/java/imageLibrary/ui/ImagePreviewPanel.java:338-343 | A drag of at most 10 on either side leaves image and zoom untouched and ends cropping. |
| Preview.CropAtZoomTwo | src/main/java/imageLibrary/ui/ImagePreviewPanel.java:382-401 | On a 20×20 image at zoom 2, dragging (4,6)→(28,30) crops the 12×12 block at (2,3) and resets zoom to 1.0. |
| Preview.FitZoom | src/main/java/imageLibrary/ui/ImagePreviewPanel.java:573-582 | The fit zoom is one of the two ratios, the scaled image fits the container (500×400 without a parent), and the zoom is positive exactly when both container sides are. |
| Preview.FitZoomIsLargest | src/main/java/imageLibrary/ui/ImagePreviewPanel.java:579-581 | Every zoom at which the image fits is at most the fit zoom. |
| Preview.FitZoomDefaultContainer | src/main/java/imageLibrary/ui/ImagePreviewPanel.java:574-577 | Without a parent a 1000×400 image gets zoom 0.5. |
| Preview.ZoomIn | src/main/java/imageLibrary/ui/ImagePreviewPanel.java:246-249 | Zoom in multiplies by 1.25 and grows exactly when the zoom is positive. |
| Preview.ZoomOut | src/main/java/imageLibrary/ui/ImagePreviewPanel.java:251-254 | Zoom out multiplies by 0.8 and shrinks exactly when the zoom is positive. |
| Preview.ZoomInOutCancel | src/main/java/imageLibrary/ui/ImagePreviewPanel.java:246-254 | Zoom in then out (or out then in) restores the zoom over the reals, and a ready panel stays ready. |
| Preview.SaveFormat | src/main/java/imageLibrary/ui/ImagePreviewPanel.java:609 | The format is "png" exactly when the lower-cased name ends with ".png", and "jpg" otherwise. |
| Preview.SaveFormatExamples | src/main/java/imageLibrary/ui/ImagePreviewPanel.java:609 | "shot.PNG" is saved as png; "photo.jpeg" and "anim.gif" are saved as jpg. |
| Preview.SaveImageChanges | src/main/java/imageLibrary/ui/ImagePreviewPanel.java:596-611 | A file is written exactly when an image and a current file exist and the user confirms; it goes to the current file's path in SaveFormat of its name. |
| Preview.SaveReencodesAsJpeg | src/main/java/imageLibrary/ui/ImagePreviewPanel.java:596-611 | A .gif, .bmp, .jpg or .jpeg file the analyzer accepts is written as JPEG data under its own path. |
| Preview.SaveKeepsPng | src/main/java/imageLibrary/ui/ImagePreviewPanel.java:596-611 | A .png file is written as PNG under its own path. |
| Preview.SaveDescription | src/main/java/imageLibrary/ui/ImagePreviewPanel.java:221-227 | With a current image the stored description for its path is the trimmed area text, and every other path keeps its description. With none the panel is unchanged. |
| Preview.LoadDescriptionForImage | src/main/java/imageLibrary/ui/ImagePreviewPanel.java:233-236 | The area shows the stored description for the path, or "" without one. |
| Preview.TypedDescriptionComesBack | src/main/java/imageLibrary/ui/ImagePreviewPanel.java:221-236 | Saving a typed text and selecting the same image again shows the trimmed text; a save with no current image changes nothing. |
| Preview.TestDescriptionStoredVerbatim | src/test/java/imageLibrary/tests/ImagePreviewPanelTest.java:38-51 | "Test description" is stored under the image's path exactly as typed. |
| Descriptions.Save | src/main/java/imageLibrary/ui/ImagePreviewPanel.java:221-227 | The current image's path maps to the trimmed text and every other entry is unchanged; with no current image the map is unchanged. |
| Descriptions.Lookup | src/main/java/imageLibrary/ui/ImagePreviewPanel.java:233-236 | A stored path reads its description and a missing path reads "". |
| Descriptions.SaveThenLookup | src/main/java/imageLibrary/ui/ImagePreviewPanel.java:221-236 | After a save, looking up the same path gives the trimmed text. |
| Descriptions.SaveLookupIsStable | src/main/java/imageLibrary/ui/ImagePreviewPanel.java:221-236 | When every stored description is already trimmed, saving the text a load produced leaves the map as it was. |
| Descriptions.SaveIdempotent | src/main/java/imageLibrary/ui/ImagePreviewPanel.java:222-224 | Saving the same text twice is the same as saving it once. |
| Descriptions.SaveToFile | src/main/java/imageLibrary/ui/ImagePreviewPanel.java:649-653 | A completed write stores the whole map. A stream that cannot be opened leaves the file as it was. A write that fails after opening leaves a truncated, unreadable file. Both failures raise the IOException. |
| Descriptions.LoadFromFile | src/main/java/imageLibrary/ui/ImagePreviewPanel.java:661-665 | The load succeeds exactly when the file holds a stored map, and that map replaces the one in memory; a missing file is a NotFound failure. |
| Descriptions.LoadFromDisk | src/main/java/imageLibrary/ui/ImagePreviewPanel.java:684-690 | A missing file changes nothing and an unreadable one fails. Otherwise the paths are the union, and a path in the file takes the file's value. |
| Descriptions.SaveLoadRoundTrip | src/main/java/imageLibrary/ui/ImagePreviewPanel.java:649-690 | Loading back what was saved restores the map with either loader. |
| Descriptions.FailedWriteLosesFile | src/main/java/imageLibrary/ui/ImagePreviewPanel.java:649-690 | After a write fails past the open, both loaders fail, so the previously saved descriptions are lost. A failed open keeps them loadable. |
| Descriptions.LoadFromDiskKeepsAndSettles | src/main/java/imageLibrary/ui/ImagePreviewPanel.java:684-690 | The disk loader keeps every description held only in memory, and loading the same file twice equals loading it once. |
| Descriptions.DiskValueWins | src/main/java/imageLibrary/ui/ImagePreviewPanel.java:684-690 | A path edited in memory after the last save gets the stored value back, while a path only in memory is kept. |
| ImageTable.IsCellEditable | src/main/java/imageLibrary/ui/ImageTablePanel.java:48-50 | The width, height and size columns are never editable, and the name and date columns always are. |
| ImageTable.NumericFilter | src/main/java/imageLibrary/ui/ImageTablePanel.java:437-448 | "Mayor que" keeps exactly the larger values, "Menor que" the smaller and "Igual a" the equal ones; any other type keeps nothing. |
| ImageTable.FieldValue | src/main/java/imageLibrary/ui/ImageTablePanel.java:370-395 | The size field is the file length. Width and height exist exactly for files the codec decodes, and are the decoded image's width and height. |
| ImageTable.NumericFilterFiles | src/main/java/imageLibrary/ui/ImageTablePanel.java:345-404 | The files the numeric cases of the dialog keep are exactly the raw-listing entries whose names pass isImageFile, that have a value for the field, and that pass the comparison against a parsed filter value. An unparsable value keeps nothing. |
| ImageTable.NumericFilterPartition | src/main/java/imageLibrary/ui/ImageTablePanel.java:437-448 | The three filter types' result lengths add up to at most the listing's length, and to exactly that length for the size field over a listing of image files. |
| ImageTable.NumericFilterFilesAppend | src/main/java/imageLibrary/ui/ImageTablePanel.java:352-404 | The numeric filter keeps listing order and multiplicity: filtering a concatenation concatenates the filtered parts. |
| ImageTable.Rename | src/main/java/imageLibrary/ui/ImageTablePanel.java:158-195 | A missing original is OriginalMissing, and an existing final name is TargetExists. Success happens exactly when the original exists, the final name does not, and renameTo succeeds; the new name is then FinalName. |
| ImageTable.RenameMovesOneName | src/main/java/imageLibrary/ui/ImageTablePanel.java:179-182 | A successful rename removes the original name, adds the final one and leaves every other name in the folder, so the count is unchanged. |
| ImageTable.StemRenameRefused | src/main/java/imageLibrary/ui/ImageTablePanel.java:159-177 | Renaming "photo.jpg" to "photo" targets "photo.jpg" itself and is refused as TargetExists. |
| ImageTable.NameEdited | src/main/java/imageLibrary/ui/ImageTablePanel.java:158-203 | For a row with an originalNames entry: an unchanged name does nothing. A changed name runs Rename. Afterwards the cell shows the final name on success and the original name on failure, originalNames at the row holds what the cell shows, the folder changes as the rename says, and no other row or entry changes. |
| ImageTable.NameEditRestoresConsistency | src/main/java/imageLibrary/ui/ImageTablePanel.java:131-203 | When every other row agrees with originalNames, an edit leaves originalNames matching every row. |
| ImageTable.CellUpdated | src/main/java/imageLibrary/ui/ImageTablePanel.java:124-149 | Updates of rows outside the table or of non-editable columns do nothing. For a name or date update, a row missing from originalNames throws a NullPointerException. Otherwise a changed name runs the rename and an unchanged one does nothing, and a date update writes the parsed date to the file originalNames names. |
| ImageTable.OnlyEditableColumnsAct | src/main/java/imageLibrary/ui/ImageTablePanel.java:48-50 | Only the name and date columns have handlers: an update of the width, height or size column, or of a row outside the table, has no effect. |
| ImageTable.NameEditSettles | src/main/java/imageLibrary/ui/ImageTablePanel.java:188-203 | Whenever the listener renames, the run that the queued setValueAt triggers has no effect. |
| ImageTable.DateEdited | src/main/java/imageLibrary/ui/ImageTablePanel.java:218-221 | The text is accepted exactly when it parses in the table's layout. The directory then holds only DateTimeOriginal, whose text parses in the EXIF layout to the same date; no dimension tag is written. |
| ImageTable.DateEditKeepsShownDate | src/main/java/imageLibrary/ui/ImageTablePanel.java:218-221 | A date shown in table layout and committed unchanged is written as the same date in the EXIF layout. |
| ImageTable.SortByModified | src/main/java/imageLibrary/ui/ImageTablePanel.java:264 | The sorted images are a permutation of the input, in ascending lastModified order. |
| ImageTable.Insert | src/main/java/imageLibrary/ui/ImageTablePanel.java:264 | One insertion step of the sort adds exactly the new image to the multiset of records. |
| ImageTable.InsertSorted | src/main/java/imageLibrary/ui/ImageTablePanel.java:264 | Inserting into an ascending sequence keeps it ascending, and the head is either the new image or the old head. |
| ImageTable.SortIsStable | src/main/java/imageLibrary/ui/ImageTablePanel.java:264 | Images sharing a lastModified value keep their relative order. |
| ImageTable.Populate | src/main/java/imageLibrary/ui/ImageTablePanel.java:263-272 | There is one row per image, rows ascend by lastModified, row i shows the i-th sorted image, and originalNames maps exactly the row indexes to the names shown. |
| ImageTable.ShowFiltered | src/main/java/imageLibrary/ui/ImageTablePanel.java:454-468 | The filter refresh replaces the rows and keeps originalNames as the last folder load wrote it. |
| ImageTable.FilteredEditRenamesHiddenFile | src/main/java/imageLibrary/ui/ImageTablePanel.java:131-140 | After filtering a two-image table down to its second image, renaming the one row shown renames the hidden first file; the shown file keeps its name. |
| ImageTable.FilteredEditPastOldRowsFails | src/main/java/imageLibrary/ui/ImageTablePanel.java:131-140 | A filtered table longer than the last load has a row with no originalNames entry, and editing its name or date throws. |
| ImageTable.ShowFilteredRebuilt | src/main/java/imageLibrary/ui/ImageTablePanel.java:263-272 | The corrected refresh rebuilds originalNames for the rows shown, so it matches every row. |
| ImageTable.RebuiltEditTargetsShownFile | src/main/java/imageLibrary/ui/ImageTablePanel.java:131-149 | After the corrected refresh, a name typed into a row renames the file that row shows, and a date goes to that file. |
| Explorer.ContainsOnlyImages | src/main/java/imageLibrary/ui/FolderExplorerPanel.java:241-251 | True exactly when no entry is a directory and every entry is an image file, and so true for an empty listing. |
| Explorer.Kept | src/main/java/imageLibrary/ui/FolderExplorerPanel.java:253-254 | Kept entries come from the listing and pass the filter, and every listed entry that passes is kept. The whole listing is kept with folders-only off, or when it holds only images. |
| Explorer.KeptAppend | src/main/java/imageLibrary/ui/FolderExplorerPanel.java:253-260 | Filtering keeps listing order and multiplicity: filtering a concatenation concatenates the filtered parts. |
| Explorer.KeptOne | src/main/java/imageLibrary/ui/FolderExplorerPanel.java:253-254 | A single entry is kept exactly when it is shown. |
| Explorer.NodeFor | src/main/java/imageLibrary/ui/FolderExplorerPanel.java:255-263 | A node carries the entry's name and path, and a non-directory gets no children. |
| Explorer.AddDirectories | src/main/java/imageLibrary/ui/FolderExplorerPanel.java:238-267 | A directory with a listing gets one child per kept entry, in listing order, built recursively. Anything else gets no children. |
| Explorer.AllEntriesShownWhenFoldersOff | src/main/java/imageLibrary/ui/FolderExplorerPanel.java:253-257 | With folders-only off, child i carries the name and path of listing entry i, for every entry. |
| Explorer.FoldersOnlyHidesMixedFiles | src/main/java/imageLibrary/ui/FolderExplorerPanel.java:253-254 | With folders-only on and a listing that is not only images, every child is a directory from the listing. |
| Explorer.ReplaceFirstSpec | src/main/java/imageLibrary/ui/FolderExplorerPanel.java:300-311 | With no match the enumeration is unchanged; otherwise exactly the first matching position is replaced. |
| Explorer.RenameTreeSpec | src/main/java/imageLibrary/ui/FolderExplorerPanel.java:300-311 | The search reports a match exactly when the post-order enumeration has one. The renamed tree's enumeration is the old one with its first match replaced. |
| Explorer.UpdateImageNameSpec | src/main/java/imageLibrary/ui/FolderExplorerPanel.java:298-314 | The first node in post-order whose path is the old path becomes FileNode(newName, newPath), and with no match the tree is unchanged. |
| Explorer.UpdateImageNameKeepsShape | src/main/java/imageLibrary/ui/FolderExplorerPanel.java:298-314 | Renaming never changes the tree's shape. |
| Explorer.InitialState | src/main/java/imageLibrary/ui/FolderExplorerPanel.java:34-42 | The panel starts with folders-only off and no current folder. The tree is rooted at the configured folder, with the children addDirectories builds with the filter off. |
| Explorer.UpdateTreeWithFolder | src/main/java/imageLibrary/ui/FolderExplorerPanel.java:202-207 | The tree is rebuilt rooted at the given folder, with the children addDirectories builds under the current flag. The flag and the current folder are kept. |
| Explorer.ToggleFolderView | src/main/java/imageLibrary/ui/FolderExplorerPanel.java:334-343 | The flag is negated and the tree rebuilt under the new flag from the configured root, not from a folder loaded later. The current folder is kept. |
| Explorer.ToggleTwice | src/main/java/imageLibrary/ui/FolderExplorerPanel.java:336 | Toggling twice restores the flag, and the whole state when the tree was built from the configured root. |
| Explorer.Select | src/main/java/imageLibrary/ui/FolderExplorerPanel.java:64-85 | An image file sets the current folder to its parent and notifies the image. A directory sets it to itself and notifies the folder. Anything else changes nothing; the tree and flag are never touched. |
| Explorer.SelectImageThenItsFolder | src/main/java/imageLibrary/ui/FolderExplorerPanel.java:64-85 | Selecting an image and then the folder holding it leaves the same current folder; only the notification differs. |
| FileNames.EndsWithAny | src/main/java/imageLibrary/ui/FolderExplorerPanel.java:285-290 | True exactly when the name ends with one of the suffixes. |
| FileNames.DottedFormats | src/main/java/imageLibrary/analyzer/ImageAnalyzer.java:79 | The analyzer's suffixes are the supported formats, in order, each behind a dot. |
| FileNames.IsImageImpliesIsImageFile | src/main/java/imageLibrary/analyzer/ImageAnalyzer.java:76-84 | Every name the analyzer accepts is accepted by the explorer's test. |
| FileNames.WebpIsNotAnalyzerImage | src/main/java/imageLibrary/ui/FolderExplorerPanel.java:282-291 | "a.webp" passes the explorer's test but not the analyzer's, so the implication is one-way. |
| FileNames.UndottedIsNotAnalyzerImage | src/main/java/imageLibrary/ui/FolderExplorerPanel.java:282-291 | "ajpg" passes the explorer's test, which needs no dot, but not the analyzer's. |
| FileNames.IsImageFileAccepts | src/test/java/imageLibrary/tests/FolderExplorerPanelTest.java:25-27 | "test.jpg", "test.PNG" and "test.webp" are image files. |
| FileNames.IsImageFileRejects | src/test/java/imageLibrary/tests/FolderExplorerPanelTest.java:29-31 | "test.txt", "test.doc" and "test" are not image files. |
| FileNames.Extension | src/main/java/imageLibrary/ui/ImageTablePanel.java:159-163 | The extension is empty exactly when no '.' appears after the first character. Otherwise it is a proper suffix of the name that starts with '.' and has no later '.'. |
| FileNames.FinalName | src/main/java/imageLibrary/ui/ImageTablePanel.java:165-166 | When the original has an extension the final name ends with it. The final name is the typed one, possibly with the extension appended, and the typed one is kept when it already ends with the extension. |
| FileNames.FinalNameIdempotent | src/main/java/imageLibrary/ui/ImageTablePanel.java:165-166 | Applying the rule to its own result changes nothing. |
| FileNames.StemTargetsOriginal | src/main/java/imageLibrary/ui/ImageTablePanel.java:159-166 | "photo" becomes "photo.jpg", and "beach.JPG" becomes "beach.JPG.jpg" because the match is case-sensitive. |
| Exif.StringValue | src/main/java/imageLibrary/util/MetadataEditor.java:71 | A text value reads as its text; any other value fails. |
| Exif.ToShort | src/main/java/imageLibrary/util/MetadataEditor.java:39 | The `(short)` cast lands in [-32768,32767], agrees with its input modulo 65536, and keeps a value already in range. |
| Exif.UpdateMetadata | src/main/java/imageLibrary/util/MetadataEditor.java:31-44 | The fresh directory holds DateTimeOriginal, whose text parses back to the capture date. Width and length tags appear exactly when the value is positive, stored as the `(short)` value, and no other tag appears. |
| Exif.WideDimensionWraps | src/main/java/imageLibrary/util/MetadataEditor.java:39 | A width of 40000 is stored as -25536. |
| Exif.ReadDescription | src/main/java/imageLibrary/util/MetadataEditor.java:60-75 | Absent or JPEG metadata, or a missing field, reads ""; otherwise the field's string value. |
| Exif.ReadDescriptionIgnoresOtherTags | src/main/java/imageLibrary/util/MetadataEditor.java:69 | Changing any other field does not change what is read. |
| Exif.DescriptionBase | src/main/java/imageLibrary/util/MetadataEditor.java:88-95 | The base is the existing directory for TIFF metadata and empty otherwise. |
| Exif.WriteDescription | src/main/java/imageLibrary/util/MetadataEditor.java:86-100 | The description field holds exactly the given bytes. Every other field is present and equal exactly as in the base. |
| Exif.WriteDescriptionIdempotent | src/main/java/imageLibrary/util/MetadataEditor.java:98-100 | Writing the same description twice gives the directory of writing it once. |
| Exif.WriteDescriptionOverwrites | src/main/java/imageLibrary/util/MetadataEditor.java:98-100 | A second write replaces the first description and keeps everything else. |
| Exif.WriteDescriptionOnJpegDropsFields | src/main/java/imageLibrary/util/MetadataEditor.java:88-95 | On JPEG metadata the written directory holds the description and nothing else. |
| Exif.WrittenDescriptionNotReadBack | src/main/java/imageLibrary/util/MetadataEditor.java:60-100 | After a write, JPEG-wrapped metadata reads "" and TIFF metadata fails, because the field holds bytes. |
| Dates.Format | src/main/java/imageLibrary/util/MetadataEditor.java:35 | The layout is 19 characters, with the separator at positions 4 and 7, a space at 10 and ':' at 13 and 16. |
| Dates.Parse | src/main/java/imageLibrary/model/ImageInfo.java:59-60 | A parse succeeds only on text of that shape with in-range fields, and what it yields is a valid date. |
| Dates.ParseFormat | src/main/java/imageLibrary/util/MetadataEditor.java:35 | Formatting a valid date and parsing it in the same layout gives the date back. |
| Dates.FormatParse | src/main/java/imageLibrary/model/ImageInfo.java:59-60 | Text that parses is exactly the formatting of what it parses to. |
| Dates.LayoutsDisjoint | src/main/java/imageLibrary/ui/ImageTablePanel.java:218-219 | No text parses in both the table layout and the EXIF layout. |
| ImageRecords.CaptureDate | src/main/java/imageLibrary/model/ImageInfo.java:49-65 | A capture date exists exactly when the metadata is JPEG with an EXIF directory whose DateTime field is text that parses; it then formats back to that text. |
| ImageRecords.CaptureDateReadsWriterLayout | src/main/java/imageLibrary/model/ImageInfo.java:56-60 | A DateTime field holding the writer's text is read as the date written. |
| ImageRecords.NewImageInfo | src/main/java/imageLibrary/model/ImageInfo.java:39-65 | Name and path come from the file, width and height from the arguments, and lastModified and size from the file. The capture date is what the capture-date block extracts from the file's metadata. |
| ImageRecords.FormattedSmallSize | src/main/java/imageLibrary/model/ImageInfo.java:128-129 | Below 1024 bytes the text is decimal digits followed by " B", and the digits read back as the size. |
| Analyzer.AnalyzeFile | src/main/java/imageLibrary/analyzer/ImageAnalyzer.java:57-69 | A record exists exactly for a regular file that passes the dotted test and decodes; it carries the decoded width and height. |
| Analyzer.AnalyzeListing | src/main/java/imageLibrary/analyzer/ImageAnalyzer.java:36-48 | Every record comes from an accepted entry of the listing, and every accepted entry yields its record. |
| Analyzer.AnalyzeListingAppend | src/main/java/imageLibrary/analyzer/ImageAnalyzer.java:36-48 | Records follow listing order: analysing a concatenation concatenates the results. |
| Analyzer.AnalyzeFolder | src/main/java/imageLibrary/analyzer/ImageAnalyzer.java:24-50 | A null, missing, non-directory or unlisted folder gives an empty list; otherwise its listing is analysed. |
| Analyzer.AnalyzeFiles | src/main/java/imageLibrary/analyzer/ImageAnalyzer.java:36-49 | The loop computes the listing analysis. |
| FileNodes.NewFileNode | src/main/java/imageLibrary/ui/FileNode.java:17-20 | A new node has the given name and path and is not expanded. |
| FileNodes.ToString | src/main/java/imageLibrary/ui/FileNode.java:58-61 | A node's text is its name. |
| FileNodes.SetName | src/main/java/imageLibrary/ui/FileNode.java:42-44 | Only the name changes. |
| FileNodes.SetFilePath | src/main/java/imageLibrary/ui/FileNode.java:50-52 | Only the path changes. |
| FileNodes.SetExpanded | src/main/java/imageLibrary/ui/FileNode.java:75-77 | Only the expanded flag changes. |
| FileNodes.SettersCommute | src/main/java/imageLibrary/ui/FileNode.java:42-52 | The setters commute and together determine the node. |
| Fs.Children | src/main/java/imageLibrary/ui/FolderExplorerPanel.java:239-240 | Children exist only for a directory with a listing and are exactly that listing. |
| Text.Lower | src/main/java/imageLibrary/analyzer/ImageAnalyzer.java:77 | Lower-casing keeps length, maps each character on its own and leaves no upper-case ASCII letter. |
| Text.LastIndexOf | src/main/java/imageLibrary/ui/ImageTablePanel.java:160 | The result is -1 or an index holding the character, and no later index holds it. |
| Text.Trim | src/main/java/imageLibrary/ui/ImagePreviewPanel.java:223 | The result is a slice of the text with no trimmable character at either end, and only trimmable characters were dropped. |
| Text.TrimIdempotent | src/main/java/imageLibrary/ui/ImagePreviewPanel.java:223 | Trimming twice is trimming once. |
| Text.NatToStringRoundTrip | src/main/java/imageLibrary/model/ImageInfo.java:129 | The decimal text of a number reads back as that number. |

## Findings

| source | as written | input that shows it | evidently intended | confidence | as-written member | corrected member |
|---|---|---|---|---|---|---|
| src/main/java/imageLibrary/ui/ImageTablePanel.java:454-468 | The filter refresh replaces the rows but keeps `originalNames`, which the edit listener (131-140) indexes by row. | Folder with a.jpg then b.jpg. Filter to b.jpg only, then type c.jpg in row 0: a.jpg is renamed. A filtered row past the last load's row count throws a NullPointerException on edit. | Rebuild `originalNames` for the rows shown, as the folder load does at 263-272. | high; not executed | ImageTable.FilteredEditRenamesHiddenFile | ImageTable.RebuiltEditTargetsShownFile |

## Left out

- Swing: layout, painting, dialogs, cursors and menus. MainWindow, ImagePanel, SimplePaintDialog and DescriptionPanel are not part of this model. Listener removal is folded into the `cropping` flag.
- Repeated `startCropping` attaches a second mouse adapter. The model keeps one gesture, because the flag cannot count adapters.
- SwingWorker work: the background decode in `displayImage` and the folder analysis in `updateWithFolder`. The model gives the analysed list directly to `ImageTable.Populate`.
- The table's selection listener, `selectImage`, `analyzeImages` and `refreshCurrentImage`. These are selection glue. The filter dialog's questions are dialogs, and its date-field tests are covered by the `applyDateFilter` line below. Its numeric tests are modelled (`ImageTable.NumericFilterFiles`). Its table refresh is modelled (`ImageTable.ShowFiltered`), because it leaves `originalNames` stale.
- ImageTable.CellUpdated: the `currentFolder == null` guard is not modelled. Without a folder the table has no rows, so the row-range guard already returns.
- `applyDateFilter` and the date cells of the rows. They depend on `java.util.Date`, the time zone and `SimpleDateFormat`, so a row keeps the raw lastModified.
- `formatFileSize`, `getFormattedSize` at 1024 bytes or more, and `getFileSize`. They use floating-point logarithms and `%.1f`/`%.2f` formatting.
- ImageRecords.NewImageInfo: `modificationDate`, `cameraModel` and `gpsCoordinates` are not fields of the record. The first is a time-zone conversion, and the others are never set.
- Image codec and rendering: ImageIO decode and encode, `getScaledInstance`, the bilinear resize dialog and ImageOperations. Decoding is the abstract `decoded` field of an entry.
- Byte-level EXIF parsing and `ExifRewriter`. A directory is a map from tags to values, and the file on disk is not modelled.
- Java serialization of the description map. A saved file is a stored map value, or absent, or unreadable.
- Filesystem sequences: the delete/rename/`setLastModified` steps after a date edit, `mkdir`, `createFolder`, `createImage`, and the expansion state of the explorer (`saveExpansionState`, `restoreExpansionState`, `expandTreeToPath`, `refreshTree`). `expandTreeToPath` and `restoreExpansionState` call `FileNode.setExpanded(true)` on the nodes they expand, so after a toggle the `expanded` flag of those nodes differs from the fresh `NodeFor` tree. `Explorer.ToggleTwice`'s whole-state equality ignores that write.
- ImageTable.NumericFilterFiles: the typed value is given already parsed. `Long.parseLong` for the size and `Integer.parseInt` for width and height, including the 32-bit range of the latter, are not modelled. The date fields of the dialog are under `applyDateFilter` above.
- Pixels.AdjustZeroIsIdentity: holds for opaque RGB buffers, which is what `IsImage` models. `new Color(getRGB(x, y))` drops alpha. Allocating the output with `original.getType()` throws for TYPE_CUSTOM decodes and re-quantizes indexed images such as GIFs through the default palette.
- Explorer.AddDirectories: a directory that reaches itself (a symbolic-link loop) cannot be written as a finite `Entry`. Java's recursion, which keeps no visited set, overflows the stack on one. The model's termination rests on the finite representation.
- Exif.WriteDescription: for TIFF metadata the result is built but never stored. `ExifRewriter.updateExifMetadataLossless` accepts only JPEG data, so the call throws. The description panel catches the exception and leaves the image unchanged.
- Pixels.AdjustPixel: contrast and saturation are computed over Dafny reals, not 32-bit floats. Results of non-zero contrast or saturation can differ from the float ones in the last unit; the all-zero identity is exact in both.
- Preview.ZoomInOutCancel: holds over reals. In doubles 1.25 × 0.8 may not return the exact starting zoom.
- Preview.ApplyCrop: requires a positive zoom. A zero-size container yields zoom 0, and the Java division by it is not modelled. The crop is modelled for opaque RGB buffers. Allocating the output with `originalImage.getType()` throws for a TYPE_CUSTOM decode; the exception is caught, the image and zoom are kept and only the selection is cleared. That branch is not modelled.
- Cropping.Crop: an exact copy of the region's pixels, as on an opaque RGB buffer. For an indexed image such as a GIF, `drawImage` into a buffer of the same type re-quantizes the pixels through the default palette.
- Cropping.ToSource: divides by the zoom over exact reals, while Java divides doubles. After two zoom-outs from 1.0 the Java zoom is 0.6400000000000001, and a selection at x = 16 maps to 24 (16 / 0.6400000000000001 = 24.999999999999996 truncates to 24). The model maps it to 25.
- Dates.Parse: strict field ranges with four-digit years 1..9999. `LocalDateTime.parse`'s resolver handling of other years and out-of-range days is not modelled.
- Text.Lower: ASCII A–Z only. Locale-specific and non-ASCII case mapping is not modelled.
- ImageCreator, FolderGenerator and `Main`. These are random generators and setup with nothing deterministic to state.

=== FILE: analyzer.dfy ===
/** ImageAnalyzer: which files of a folder become ImageInfo records. Decoding
    is the codec's answer recorded in each entry. */
module Analyzer {
  import opened Wrappers
  import opened FileNames
  import opened Fs
  import opened ImageRecords

  /** The test analyzeFile and the folder loop apply: a regular file with a
      supported dotted extension that the codec decodes. */
  predicate Accepted(file: Entry)
  {
    IsFile(file) && IsImage(file.name) && file.decoded.Decoded?
  }

  /** analyzeFile: the record for an accepted file, null otherwise. */
  function AnalyzeFile(file: Entry): (r: Option<ImageInfo>)
    ensures r.Some? <==> Accepted(file)
    ensures r.Some? ==> r.value == NewImageInfo(file, file.decoded.width, file.decoded.height)
  {
    if Accepted(file) then Some(NewImageInfo(file, file.decoded.width, file.decoded.height)) else None
  }

  /** The records of the accepted entries of a listing, in listing order. */
  function AnalyzeListing(files: seq<Entry>): (r: seq<ImageInfo>)
    ensures |r| <= |files|
    ensures forall info :: info in r ==> exists f :: f in files && AnalyzeFile(f) == Some(info)
    ensures forall f :: f in files && Accepted(f) ==> AnalyzeFile(f).value in r
  {
    if |files| == 0 then []
    else
      var rest := AnalyzeListing(files[1..]);
      assert forall f :: f in files[1..] ==> f in files;
      assert forall f :: f in files ==> f == files[0] || f in files[1..];
      match AnalyzeFile(files[0])
      case Some(info) => [info] + rest
      case None => rest
  }

  /** Listing order is kept: analyzing a concatenation concatenates the results. */
  lemma {:induction false} AnalyzeListingAppend(a: seq<Entry>, b: seq<Entry>)
    ensures AnalyzeListing(a + b) == AnalyzeListing(a) + AnalyzeListing(b)
    decreases |a|
  {
    if |a| == 0 {
      assert a + b == b;
    } else {
      assert (a + b)[0] == a[0];
      assert (a + b)[1..] == a[1..] + b;
      AnalyzeListingAppend(a[1..], b);
    }
  }

  /** The folder argument: null, or an entry the filesystem describes. */
  function AnalyzeFolder(folder: Option<Entry>): (r: seq<ImageInfo>)
    ensures folder.None? || !Exists(folder.value) || !IsDirectory(folder.value) ==> r == []
    ensures folder.Some? && folder.value.kind.Unlisted? ==> r == []
    ensures folder.Some? && folder.value.kind.Directory? ==> r == AnalyzeListing(folder.value.kind.listing)
  {
    if folder.None? || !Exists(folder.value) || !IsDirectory(folder.value) then []
    else
      match folder.value.kind
      case Directory(files) => AnalyzeListing(files)
      case _ => []
  }

  /** analyzeFolder's loop over the listing. */
  method AnalyzeFiles(files: seq<Entry>) returns (images: seq<ImageInfo>)
    ensures images == AnalyzeListing(files)
  {
    images := [];
    var i := 0;
    while i < |files|
      invariant 0 <= i <= |files|
      invariant images == AnalyzeListing(files[..i])
    {
      assert files[..i + 1] == files[..i] + [files[i]];
      AnalyzeListingAppend(files[..i], [files[i]]);
      var found := AnalyzeFile(files[i]);
      if found.Some? {
        images := images + [found.value];
      }
      i := i + 1;
    }
    assert files[..i] == files;
  }
}

=== FILE: cropping.dfy ===
/** Display-space crop selections, their mapping to source pixels, and the
    extraction of the selected pixels. */
module Cropping {
  import opened Wrappers
  import opened Pixels

  /** A mouse position in display coordinates (java.awt.Point). */
  datatype Point = Point(x: int, y: int)

  /** java.awt.Rectangle: top-left corner and extent. */
  datatype Rect = Rect(x: int, y: int, width: int, height: int)

  function Min(a: int, b: int): int { if a <= b then a else b }
  function Max(a: int, b: int): int { if a <= b then b else a }
  function Abs(a: int): nat { if a < 0 then -a else a }

  /** The rectangle drawn while dragging from start to p: anchored at the
      minimum corner, with absolute width and height. */
  function DragRect(start: Point, p: Point): (r: Rect)
    ensures r.width >= 0 && r.height >= 0
    ensures r.x <= start.x && r.x <= p.x && r.y <= start.y && r.y <= p.y
    ensures (r.x == start.x && r.x + r.width == p.x) || (r.x == p.x && r.x + r.width == start.x)
    ensures (r.y == start.y && r.y + r.height == p.y) || (r.y == p.y && r.y + r.height == start.y)
  {
    Rect(Min(start.x, p.x), Min(start.y, p.y), Abs(p.x - start.x), Abs(p.y - start.y))
  }

  /** Dragging from a to b or from b to a selects the same rectangle. */
  lemma DragRectSymmetric(a: Point, b: Point)
    ensures DragRect(a, b) == DragRect(b, a)
  {
  }

  /** Strict minimum side, in display pixels, for a release to attempt a crop. */
  const MinCropSide: int := 10

  predicate LargeEnough(r: Rect)
  {
    r.width > MinCropSide && r.height > MinCropSide
  }

  /** A rectangle lying inside a w x h image with positive area. */
  predicate FitsIn(r: Rect, w: int, h: int)
  {
    0 <= r.x && 0 <= r.y && 0 < r.width && 0 < r.height
    && r.x + r.width <= w && r.y + r.height <= h
  }

  /** The source-space counterpart of a display value: divide by the zoom and
      truncate as Java's (int) cast does. */
  function Unzoom(v: int, zoom: real): int
    requires zoom > 0.0
  {
    TruncToInt(v as real / zoom)
  }

  /** The mapping at the head of applyCrop: divide by zoom, truncate, clamp the
      corner into [0,w] x [0,h], shorten the extent to what is left of the
      image. None when the result has no area (the early return). */
  function ToSource(r: Rect, zoom: real, w: int, h: int): (res: Option<Rect>)
    requires zoom > 0.0
    requires w > 0 && h > 0
    ensures res.Some? ==> FitsIn(res.value, w, h)
    ensures res.None? <==> (Unzoom(r.width, zoom) <= 0 || Unzoom(r.height, zoom) <= 0
                            || Unzoom(r.x, zoom) >= w || Unzoom(r.y, zoom) >= h)
    ensures res.Some? ==> (res.value.x == Max(0, Unzoom(r.x, zoom))
                           && res.value.y == Max(0, Unzoom(r.y, zoom)))
    ensures res.Some? ==> (res.value.width <= Unzoom(r.width, zoom)
                           && res.value.height <= Unzoom(r.height, zoom))
    ensures res.Some? ==> ((res.value.width == Unzoom(r.width, zoom) || res.value.x + res.value.width == w)
                           && (res.value.height == Unzoom(r.height, zoom) || res.value.y + res.value.height == h))
  {
    var x := Max(0, Min(Unzoom(r.x, zoom), w));
    var y := Max(0, Min(Unzoom(r.y, zoom), h));
    var width := Min(Unzoom(r.width, zoom), w - x);
    var height := Min(Unzoom(r.height, zoom), h - y);
    if width <= 0 || height <= 0 then None else Some(Rect(x, y, width, height))
  }

  /** At zoom 1 a selection already inside the image maps to itself. */
  lemma ToSourceUnitZoom(r: Rect, w: int, h: int)
    requires w > 0 && h > 0
    requires FitsIn(r, w, h)
    ensures ToSource(r, 1.0, w, h) == Some(r)
  {
    assert Unzoom(r.x, 1.0) == r.x;
    assert Unzoom(r.y, 1.0) == r.y;
    assert Unzoom(r.width, 1.0) == r.width;
    assert Unzoom(r.height, 1.0) == r.height;
  }

  /** A selection starting left of or above the image is moved onto the edge,
      not clipped: it keeps its full (truncated) extent when that fits. */
  lemma ToSourceShiftsNegativeCorner(r: Rect, w: int, h: int)
    requires w > 0 && h > 0
    requires r.x < 0 && r.y < 0 && 0 < r.width <= w && 0 < r.height <= h
    ensures ToSource(r, 1.0, w, h) == Some(Rect(0, 0, r.width, r.height))
  {
    assert Unzoom(r.x, 1.0) == r.x;
    assert Unzoom(r.y, 1.0) == r.y;
    assert Unzoom(r.width, 1.0) == r.width;
    assert Unzoom(r.height, 1.0) == r.height;
  }

  /** The pixels of grid inside region, re-based at (0,0): the drawImage copy
      of applyCrop. */
  function Crop(grid: Grid, region: Rect): (out: Grid)
    requires |grid| > 0 && Rectangular(grid, Width(grid), Height(grid))
    requires FitsIn(region, Width(grid), Height(grid))
    ensures Rectangular(out, region.width, region.height)
    ensures forall i, j :: 0 <= i < region.height && 0 <= j < region.width ==>
              out[i][j] == grid[region.y + i][region.x + j]
    ensures IsImage(grid) ==> IsImage(out)
  {
    seq(region.height, i requires 0 <= i < region.height =>
      grid[region.y + i][region.x .. region.x + region.width])
  }

  /** Cropping to the whole image changes nothing. */
  lemma CropWholeImage(grid: Grid)
    requires |grid| > 0 && Rectangular(grid, Width(grid), Height(grid)) && Width(grid) > 0
    ensures Crop(grid, Rect(0, 0, Width(grid), Height(grid))) == grid
  {
    var out := Crop(grid, Rect(0, 0, Width(grid), Height(grid)));
    forall i | 0 <= i < |grid|
      ensures out[i] == grid[i]
    {
    }
  }

  /** Two successive crops are one crop of the original at the summed offset. */
  lemma CropTwice(grid: Grid, a: Rect, b: Rect)
    requires |grid| > 0 && Rectangular(grid, Width(grid), Height(grid))
    requires FitsIn(a, Width(grid), Height(grid))
    requires FitsIn(b, a.width, a.height)
    ensures FitsIn(Rect(a.x + b.x, a.y + b.y, b.width, b.height), Width(grid), Height(grid))
    ensures Crop(Crop(grid, a), b) == Crop(grid, Rect(a.x + b.x, a.y + b.y, b.width, b.height))
  {
    var once := Crop(grid, a);
    var lhs := Crop(once, b);
    var rhs := Crop(grid, Rect(a.x + b.x, a.y + b.y, b.width, b.height));
    forall i | 0 <= i < b.height
      ensures lhs[i] == rhs[i]
    {
      forall j | 0 <= j < b.width
        ensures lhs[i][j] == rhs[i][j]
      {
        assert lhs[i][j] == once[b.y + i][b.x + j];
      }
    }
  }
}

=== FILE: dates.dfy ===
/** Second-precision local date-times and the two fixed-width text layouts the
    library uses for them: "yyyy:MM:dd HH:mm:ss" (the DateTime layout of section 8
    of TIFF 6.0, used for EXIF tags) and "yyyy-MM-dd HH:mm:ss" (the file table). */
module Dates {
  import opened Wrappers
  import opened Text

  /** A java.time.LocalDateTime with whole seconds. */
  datatype DateTime = DateTime(year: int, month: int, day: int,
                               hour: int, minute: int, second: int)

  predicate IsLeapYear(y: int)
  {
    (y % 4 == 0 && y % 100 != 0) || y % 400 == 0
  }

  function DaysInMonth(y: int, m: int): int
    requires 1 <= m <= 12
  {
    if m == 2 then (if IsLeapYear(y) then 29 else 28)
    else if m == 4 || m == 6 || m == 9 || m == 11 then 30
    else 31
  }

  /** Every field in its calendar range; years limited to four digits. */
  predicate Valid(d: DateTime)
  {
    && 1 <= d.year <= 9999
    && 1 <= d.month <= 12
    && 1 <= d.day <= DaysInMonth(d.year, d.month)
    && 0 <= d.hour <= 23
    && 0 <= d.minute <= 59
    && 0 <= d.second <= 59
  }

  /** The date separator of the EXIF layout "yyyy:MM:dd HH:mm:ss". */
  const ExifSeparator: char := ':'
  /** The date separator of the table layout "yyyy-MM-dd HH:mm:ss". */
  const TableSeparator: char := '-'

  function Pad2(n: nat): (r: string)
    requires n < 100
    ensures |r| == 2 && IsDigit(r[0]) && IsDigit(r[1])
  {
    [DigitChar(n / 10), DigitChar(n % 10)]
  }

  function Pad4(n: nat): (r: string)
    requires n < 10000
    ensures |r| == 4 && forall i :: 0 <= i < 4 ==> IsDigit(r[i])
  {
    [DigitChar(n / 1000), DigitChar(n / 100 % 10), DigitChar(n / 10 % 10), DigitChar(n % 10)]
  }

  /** DateTimeFormatter.format with the pattern "yyyy<sep>MM<sep>dd HH:mm:ss". */
  function Format(d: DateTime, sep: char): (r: string)
    requires Valid(d)
    ensures |r| == 19
    ensures r[4] == sep && r[7] == sep && r[10] == ' ' && r[13] == ':' && r[16] == ':'
  {
    Pad4(d.year) + [sep] + Pad2(d.month) + [sep] + Pad2(d.day) + " "
      + Pad2(d.hour) + ":" + Pad2(d.minute) + ":" + Pad2(d.second)
  }

  /** Positions of the layout that hold digits. */
  predicate DigitPosition(i: int)
  {
    0 <= i < 19 && i != 4 && i != 7 && i != 10 && i != 13 && i != 16
  }

  /** The text has the shape of the layout: separators in place, digits elsewhere. */
  predicate Shaped(s: string, sep: char)
  {
    && |s| == 19
    && s[4] == sep && s[7] == sep && s[10] == ' ' && s[13] == ':' && s[16] == ':'
    && forall i :: 0 <= i < 19 && DigitPosition(i) ==> IsDigit(s[i])
  }

  function Field2(s: string, i: nat): (v: nat)
    requires i + 2 <= |s| && IsDigit(s[i]) && IsDigit(s[i + 1])
    ensures v < 100
  {
    10 * DigitValue(s[i]) + DigitValue(s[i + 1])
  }

  function Field4(s: string, i: nat): (v: nat)
    requires i + 4 <= |s| && forall k :: i <= k < i + 4 ==> IsDigit(s[k])
    ensures v < 10000
  {
    1000 * DigitValue(s[i]) + 100 * DigitValue(s[i + 1]) + 10 * DigitValue(s[i + 2]) + DigitValue(s[i + 3])
  }

  /** The fields read off a shaped text, before range checks. */
  function Fields(s: string, sep: char): DateTime
    requires Shaped(s, sep)
  {
    DateTime(Field4(s, 0), Field2(s, 5), Field2(s, 8), Field2(s, 11), Field2(s, 14), Field2(s, 17))
  }

  /** LocalDateTime.parse with the pattern "yyyy<sep>MM<sep>dd HH:mm:ss" and
      strict field ranges; None is the DateTimeParseException. */
  function Parse(s: string, sep: char): (r: Option<DateTime>)
    ensures r.Some? ==> Valid(r.value)
    ensures r.Some? ==> Shaped(s, sep)
  {
    if !Shaped(s, sep) then None
    else
      var d := Fields(s, sep);
      if Valid(d) then Some(d) else None
  }

  lemma Pad2Field(n: nat, s: string, i: nat)
    requires n < 100 && i + 2 <= |s| && s[i..i + 2] == Pad2(n)
    ensures IsDigit(s[i]) && IsDigit(s[i + 1]) && Field2(s, i) == n
  {
    assert s[i] == Pad2(n)[0] && s[i + 1] == Pad2(n)[1];
  }

  lemma Pad4Field(n: nat, s: string, i: nat)
    requires n < 10000 && i + 4 <= |s| && s[i..i + 4] == Pad4(n)
    ensures forall k :: i <= k < i + 4 ==> IsDigit(s[k])
    ensures Field4(s, i) == n
  {
    assert s[i] == Pad4(n)[0] && s[i + 1] == Pad4(n)[1];
    assert s[i + 2] == Pad4(n)[2] && s[i + 3] == Pad4(n)[3];
    DigitsOfFour(n);
  }

  /** A number below 10000 is the weighted sum of its four decimal digits. */
  lemma DigitsOfFour(n: nat)
    requires n < 10000
    ensures 1000 * (n / 1000) + 100 * (n / 100 % 10) + 10 * (n / 10 % 10) + n % 10 == n
  {
    var q1 := n / 10;
    var q2 := q1 / 10;
    var q3 := q2 / 10;
    assert n == 10 * q1 + n % 10;
    assert q1 == 10 * q2 + q1 % 10;
    assert q2 == 10 * q3 + q2 % 10;
    assert q2 == n / 100;
    assert q3 == n / 1000;
  }

  /** Formatting then parsing with the same layout gives back the date-time. */
  lemma ParseFormat(d: DateTime, sep: char)
    requires Valid(d)
    ensures Parse(Format(d, sep), sep) == Some(d)
  {
    var s := Format(d, sep);
    Pad4Field(d.year, s, 0);
    Pad2Field(d.month, s, 5);
    Pad2Field(d.day, s, 8);
    Pad2Field(d.hour, s, 11);
    Pad2Field(d.minute, s, 14);
    Pad2Field(d.second, s, 17);
    assert Shaped(s, sep);
    assert Fields(s, sep) == d;
  }

  lemma Field2Pad(s: string, i: nat)
    requires i + 2 <= |s| && IsDigit(s[i]) && IsDigit(s[i + 1])
    ensures s[i..i + 2] == Pad2(Field2(s, i))
  {
    var a, b := DigitValue(s[i]), DigitValue(s[i + 1]);
    assert (10 * a + b) / 10 == a && (10 * a + b) % 10 == b;
  }

  lemma Field4Pad(s: string, i: nat)
    requires i + 4 <= |s| && forall k :: i <= k < i + 4 ==> IsDigit(s[k])
    ensures s[i..i + 4] == Pad4(Field4(s, i))
  {
    var a, b, c, e := DigitValue(s[i]), DigitValue(s[i + 1]), DigitValue(s[i + 2]), DigitValue(s[i + 3]);
    var n := 1000 * a + 100 * b + 10 * c + e;
    assert n / 1000 == a;
    assert n / 100 == 10 * a + b;
    assert n / 100 % 10 == b;
    assert n / 10 == 100 * a + 10 * b + c;
    assert n / 10 % 10 == c;
    assert n % 10 == e;
  }

  /** A text the parser accepts is exactly the formatted form of what it returns:
      the layout has a single spelling for each date-time. */
  lemma FormatParse(s: string, sep: char)
    requires Parse(s, sep).Some?
    ensures Format(Parse(s, sep).value, sep) == s
  {
    var d := Parse(s, sep).value;
    Field4Pad(s, 0);
    Field2Pad(s, 5);
    Field2Pad(s, 8);
    Field2Pad(s, 11);
    Field2Pad(s, 14);
    Field2Pad(s, 17);
    var f := Format(d, sep);
    assert f[0..4] == s[0..4];
    assert f[5..7] == s[5..7] && f[8..10] == s[8..10];
    assert f[11..13] == s[11..13] && f[14..16] == s[14..16] && f[17..19] == s[17..19];
    forall i | 0 <= i < 19
      ensures f[i] == s[i]
    {
      if i < 4 { assert f[i] == f[0..4][i]; }
      else if 5 <= i < 7 { assert f[i] == f[5..7][i - 5]; }
      else if 8 <= i < 10 { assert f[i] == f[8..10][i - 8]; }
      else if 11 <= i < 13 { assert f[i] == f[11..13][i - 11]; }
      else if 14 <= i < 16 { assert f[i] == f[14..16][i - 14]; }
      else if 17 <= i < 19 { assert f[i] == f[17..19][i - 17]; }
    }
  }

  /** The two layouts never accept the same text: a table date typed into an
      EXIF field (or the reverse) is a parse error. */
  lemma LayoutsDisjoint(s: string)
    ensures !(Parse(s, ExifSeparator).Some? && Parse(s, TableSeparator).Some?)
  {
  }
}

=== FILE: descriptions.dfy ===
/** The preview panel's in-memory map from an image's absolute path to its
    description, and how it is saved to and restored from a file. */
module Descriptions {
  import opened Wrappers
  import opened Text

  type DescriptionMap = map<string, string>

  /** saveDescription: the trimmed text of the description area is stored
      under the current image's absolute path; with no current image nothing
      happens. */
  function Save(m: DescriptionMap, currentImage: Option<string>, text: string): (r: DescriptionMap)
    ensures currentImage.None? ==> r == m
    ensures currentImage.Some? ==> currentImage.value in r && r[currentImage.value] == Trim(text)
    ensures currentImage.Some? ==>
              forall k :: k != currentImage.value ==> (k in r <==> k in m) && (k in m ==> r[k] == m[k])
  {
    match currentImage
    case None => m
    case Some(path) => m[path := Trim(text)]
  }

  /** loadDescriptionForImage: the stored description, or "" when there is none. */
  function Lookup(m: DescriptionMap, path: string): (r: string)
    ensures path in m ==> r == m[path]
    ensures path !in m ==> r == ""
  {
    if path in m then m[path] else ""
  }

  /** Saving and then loading for the same image shows the trimmed text. */
  lemma SaveThenLookup(m: DescriptionMap, path: string, text: string)
    ensures Lookup(Save(m, Some(path), text), path) == Trim(text)
  {
  }

  /** Saving the text a load put in the area stores nothing new: the stored
      description is already trimmed. */
  lemma SaveLookupIsStable(m: DescriptionMap, path: string)
    requires forall k :: k in m ==> Trim(m[k]) == m[k]
    ensures Save(m, Some(path), Lookup(m, path)) == m[path := Lookup(m, path)]
    ensures path in m ==> Save(m, Some(path), Lookup(m, path)) == m
  {
  }

  /** Saving the same text twice is saving it once. */
  lemma SaveIdempotent(m: DescriptionMap, currentImage: Option<string>, text: string)
    ensures Save(Save(m, currentImage, text), currentImage, text) == Save(m, currentImage, text)
  {
  }

  /** The description file as the object stream would find it. */
  datatype StoredFile = Absent | Unreadable | Stored(contents: DescriptionMap)

  /** Why a load failed: FileNotFoundException, or any other IOException or
      ClassNotFoundException from readObject. */
  datatype LoadError = NotFound | ReadError

  /** How the object stream's write ends: the map is written; the
      FileOutputStream cannot be opened (the file is not touched); or an
      IOException after opening, when the file is already truncated. */
  datatype WriteOutcome = WriteCompleted | OpenFailed | WriteFailed

  /** saveDescriptionsToFile and saveDescriptionsToDisk write the whole map,
      replacing what the file held. The result is the file afterwards and
      whether the IOException reaches the caller. */
  function SaveToFile(m: DescriptionMap, before: StoredFile, outcome: WriteOutcome): (r: (StoredFile, bool))
    ensures r.1 <==> !outcome.WriteCompleted?
    ensures outcome.WriteCompleted? ==> r.0 == Stored(m)
    ensures outcome.OpenFailed? ==> r.0 == before
    ensures outcome.WriteFailed? ==> r.0 == Unreadable
  {
    match outcome
    case WriteCompleted => (Stored(m), false)
    case OpenFailed => (before, true)
    case WriteFailed => (Unreadable, true)
  }

  /** loadDescriptionsFromFile: the stored map replaces the one in memory. */
  function LoadFromFile(m: DescriptionMap, file: StoredFile): (r: Result<DescriptionMap, LoadError>)
    ensures file.Stored? <==> r.Success?
    ensures r.Success? ==> r.value == file.contents
    ensures file.Absent? ==> r == Failure(NotFound)
  {
    match file
    case Absent => Failure(NotFound)
    case Unreadable => Failure(ReadError)
    case Stored(d) => Success(d)
  }

  /** loadDescriptionsFromDisk: putAll of the stored map into the one in
      memory, so the stored value wins for a path both hold; an absent file
      changes nothing. */
  function LoadFromDisk(m: DescriptionMap, file: StoredFile): (r: Result<DescriptionMap, LoadError>)
    ensures file.Unreadable? <==> r.Failure?
    ensures file.Absent? ==> r == Success(m)
    ensures file.Stored? ==> r.Success? && r.value.Keys == m.Keys + file.contents.Keys
    ensures file.Stored? ==>
              forall k :: k in r.value ==> r.value[k] == (if k in file.contents then file.contents[k] else m[k])
  {
    match file
    case Absent => Success(m)
    case Unreadable => Failure(ReadError)
    case Stored(d) => Success(m + d)
  }

  /** Saving and loading back restores the map, by either loader. */
  lemma SaveLoadRoundTrip(m: DescriptionMap, current: DescriptionMap, before: StoredFile)
    ensures LoadFromFile(current, SaveToFile(m, before, WriteCompleted).0) == Success(m)
    ensures LoadFromDisk(m, SaveToFile(m, before, WriteCompleted).0) == Success(m)
  {
    assert m + m == m;
  }

  /** A write that fails after the file was opened loses what was saved
      before: both loaders then fail, and the disk loader leaves nothing of
      the earlier file to merge. A write that cannot open the file keeps it. */
  lemma FailedWriteLosesFile(m: DescriptionMap, current: DescriptionMap, earlier: DescriptionMap)
    ensures var (f, raised) := SaveToFile(m, Stored(earlier), WriteFailed);
            raised && LoadFromFile(current, f) == Failure(ReadError) && LoadFromDisk(current, f) == Failure(ReadError)
    ensures var (f, raised) := SaveToFile(m, Stored(earlier), OpenFailed);
            raised && LoadFromFile(current, f) == Success(earlier)
  {
  }

  /** The disk loader never loses a description held only in memory, and
      loading the same file twice is loading it once. */
  lemma LoadFromDiskKeepsAndSettles(m: DescriptionMap, file: StoredFile)
    requires file.Stored?
    ensures forall k :: k in m && k !in file.contents ==> Lookup(LoadFromDisk(m, file).value, k) == m[k]
    ensures LoadFromDisk(LoadFromDisk(m, file).value, file) == LoadFromDisk(m, file)
  {
    var d := file.contents;
    assert (m + d) + d == m + d;
  }

  /** A description edited after the last save is overwritten by the stored
      one when the disk loader runs. */
  lemma DiskValueWins()
    ensures var memory := map["/img/a.jpg" := "edited", "/img/b.jpg" := "only here"];
            var disk := Stored(map["/img/a.jpg" := "saved"]);
            LoadFromDisk(memory, disk)
              == Success(map["/img/a.jpg" := "saved", "/img/b.jpg" := "only here"])
  {
    var memory := map["/img/a.jpg" := "edited", "/img/b.jpg" := "only here"];
    var d := map["/img/a.jpg" := "saved"];
    assert "/img/a.jpg" != "/img/b.jpg" by { assert "/img/a.jpg"[5] != "/img/b.jpg"[5]; }
    assert memory + d == map["/img/a.jpg" := "saved", "/img/b.jpg" := "only here"];
  }
}

=== FILE: exif.dfy ===
/** MetadataEditor over an abstract tag directory. For a JPEG input, the EXIF
    block the file ends up with is the directory handed to the lossless
    rewriter. The rewriter accepts only JPEG data, so for TIFF input the
    directory is built but never stored. The byte layout of the block belongs
    to the imaging library and is not modelled. */
module Exif {
  import opened Wrappers
  import opened Dates

  type byte = x: int | 0 <= x < 256

  /** The tags the library names. Every other tag is Other(number) and is
      carried along untouched. */
  datatype Tag =
    | DateTimeOriginal          // EXIF_TAG_DATE_TIME_ORIGINAL
    | ExifImageWidth            // EXIF_TAG_EXIF_IMAGE_WIDTH
    | ExifImageLength           // EXIF_TAG_EXIF_IMAGE_LENGTH
    | DeviceSettingDescription  // EXIF_TAG_DEVICE_SETTING_DESCRIPTION
    | TiffDateTime              // TIFF_TAG_DATE_TIME (IFD0)
    | Other(number: int)

  /** A field's value: ASCII text, a 16-bit SHORT, or UNDEFINED raw bytes. */
  datatype Value = Ascii(text: string) | Short(short: int) | Undefined(bytes: seq<byte>)

  /** A tag directory: at most one field per tag. */
  type Directory = map<Tag, Value>

  /** What the imaging library returns for a file's metadata: nothing, the
      JPEG wrapper (holding an optional EXIF directory), or a TIFF metadata
      object. */
  datatype Metadata = NoMetadata | JpegMetadata(exif: Option<Directory>) | TiffMetadata(fields: Directory)

  /** Reading a text value from a field that does not hold text fails. */
  datatype ReadError = NotText

  /** TiffField.getStringValue: only text fields have a string value. */
  function StringValue(v: Value): (r: Result<string, ReadError>)
    ensures r.Success? <==> v.Ascii?
    ensures r.Success? ==> r.value == v.text
  {
    match v
    case Ascii(t) => Success(t)
    case _ => Failure(NotText)
  }

  /** Java's (short) cast: the low 16 bits read as a signed value. */
  function ToShort(v: int): (r: int)
    ensures -32768 <= r <= 32767
    ensures (v - r) % 65536 == 0
    ensures -32768 <= v <= 32767 ==> r == v
  {
    (v + 32768) % 65536 - 32768
  }

  /** updateMetadata: a fresh output set holding the capture date and, when
      positive, the two dimensions. Nothing of the file's previous EXIF block
      survives: the result depends on these three arguments alone. */
  function UpdateMetadata(captureDate: DateTime, width: int, height: int): (d: Directory)
    requires Valid(captureDate)
    ensures DateTimeOriginal in d && d[DateTimeOriginal].Ascii?
    ensures Parse(d[DateTimeOriginal].text, ExifSeparator) == Some(captureDate)
    ensures ExifImageWidth in d <==> width > 0
    ensures ExifImageLength in d <==> height > 0
    ensures width > 0 ==> d[ExifImageWidth] == Short(ToShort(width))
    ensures height > 0 ==> d[ExifImageLength] == Short(ToShort(height))
    ensures forall t :: t in d ==> t == DateTimeOriginal || t == ExifImageWidth || t == ExifImageLength
  {
    ParseFormat(captureDate, ExifSeparator);
    var withDate := map[DateTimeOriginal := Ascii(Format(captureDate, ExifSeparator))];
    var withWidth := if width > 0 then withDate[ExifImageWidth := Short(ToShort(width))] else withDate;
    if height > 0 then withWidth[ExifImageLength := Short(ToShort(height))] else withWidth
  }

  /** A dimension beyond the SHORT range is stored wrapped: 40000 reads back as -25536. */
  lemma WideDimensionWraps()
    ensures UpdateMetadata(DateTime(2024, 1, 1, 0, 0, 0), 40000, -1)[ExifImageWidth] == Short(-25536)
  {
  }

  /** readDescription: the description text of TIFF metadata, "" when there is
      no metadata or no description field, and "" for JPEG metadata (the cast to
      TiffImageMetadata throws and is caught). */
  function ReadDescription(m: Metadata): (r: Result<string, ReadError>)
    ensures !m.TiffMetadata? ==> r == Success("")
    ensures m.TiffMetadata? && DeviceSettingDescription !in m.fields ==> r == Success("")
    ensures m.TiffMetadata? && DeviceSettingDescription in m.fields ==>
              r == StringValue(m.fields[DeviceSettingDescription])
  {
    match m
    case TiffMetadata(fields) =>
      if DeviceSettingDescription in fields then StringValue(fields[DeviceSettingDescription])
      else Success("")
    case _ => Success("")
  }

  /** Only the description field matters to readDescription: adding or changing
      any other field leaves its answer alone. */
  lemma ReadDescriptionIgnoresOtherTags(fields: Directory, t: Tag, v: Value)
    requires t != DeviceSettingDescription
    ensures ReadDescription(TiffMetadata(fields[t := v])) == ReadDescription(TiffMetadata(fields))
  {
  }

  /** The directory writeDescription starts from: the existing fields when the
      TIFF cast succeeds, an empty output set otherwise. */
  function DescriptionBase(m: Metadata): (d: Directory)
    ensures m.TiffMetadata? ==> d == m.fields
    ensures !m.TiffMetadata? ==> d == map[]
  {
    if m.TiffMetadata? then m.fields else map[]
  }

  /** writeDescription: remove the description field from the base directory,
      then add it back holding the given bytes. */
  function WriteDescription(m: Metadata, description: seq<byte>): (d: Directory)
    ensures DeviceSettingDescription in d && d[DeviceSettingDescription] == Undefined(description)
    ensures forall t :: t != DeviceSettingDescription ==>
              (t in d <==> t in DescriptionBase(m))
    ensures forall t :: t != DeviceSettingDescription && t in d ==> d[t] == DescriptionBase(m)[t]
  {
    var base := DescriptionBase(m);
    var removed := base - {DeviceSettingDescription};
    removed[DeviceSettingDescription := Undefined(description)]
  }

  /** Writing the same description twice gives the directory of writing it once. */
  lemma WriteDescriptionIdempotent(m: Metadata, description: seq<byte>)
    ensures WriteDescription(TiffMetadata(WriteDescription(m, description)), description)
         == WriteDescription(m, description)
  {
    var once := WriteDescription(m, description);
    var twice := WriteDescription(TiffMetadata(once), description);
    assert twice.Keys == once.Keys;
  }

  /** A later description replaces an earlier one and nothing else changes. */
  lemma WriteDescriptionOverwrites(m: Metadata, first: seq<byte>, second: seq<byte>)
    ensures WriteDescription(TiffMetadata(WriteDescription(m, first)), second)
         == WriteDescription(m, second)
  {
    var a := WriteDescription(TiffMetadata(WriteDescription(m, first)), second);
    var b := WriteDescription(m, second);
    assert a.Keys == b.Keys;
  }

  /** For JPEG metadata the cast fails, so the written directory holds the
      description and nothing else: every earlier EXIF field is dropped. */
  lemma WriteDescriptionOnJpegDropsFields(exif: Option<Directory>, description: seq<byte>)
    ensures WriteDescription(JpegMetadata(exif), description)
         == map[DeviceSettingDescription := Undefined(description)]
  {
  }

  /** What readDescription gives back after writeDescription: nothing useful.
      On JPEG metadata the reader's cast fails and it reads ""; on TIFF metadata
      the description field holds bytes, not text, so reading it fails. */
  lemma WrittenDescriptionNotReadBack(m: Metadata, description: seq<byte>)
    ensures ReadDescription(JpegMetadata(Some(WriteDescription(m, description)))) == Success("")
    ensures ReadDescription(TiffMetadata(WriteDescription(m, description))) == Failure(NotText)
  {
  }
}

=== FILE: explorer.dfy ===
/** FolderExplorerPanel: building the folder tree from directory listings,
    renaming a node after a file rename, the folders-only toggle and the
    selection rule. */
module Explorer {
  import opened Wrappers
  import opened FileNames
  import opened Fs
  import opened FileNodes

  /** A DefaultMutableTreeNode holding a FileNode, with its children in order. */
  datatype Tree = Node(node: FileNode, children: seq<Tree>)

  /** The first loop of addDirectories: no entry is a directory and every entry
      is an image file. True for an empty listing. */
  function ContainsOnlyImages(files: seq<Entry>): (b: bool)
    ensures b <==> forall i :: 0 <= i < |files| ==> !IsDirectory(files[i]) && IsImageFile(files[i].name)
  {
    if |files| == 0 then true
    else if IsDirectory(files[0]) || !IsImageFile(files[0].name) then false
    else
      var rest := ContainsOnlyImages(files[1..]);
      assert forall i :: 1 <= i < |files| ==> files[i] == files[1..][i - 1];
      rest
  }

  /** The condition of the second loop: with folders-only off every entry is
      shown; with it on, directories, and files only when the whole listing is
      images. */
  predicate Shown(file: Entry, foldersOnly: bool, onlyImages: bool)
  {
    !foldersOnly || IsDirectory(file) || onlyImages
  }

  /** The entries the second loop adds, in listing order. */
  function Kept(files: seq<Entry>, foldersOnly: bool, onlyImages: bool): (r: seq<Entry>)
    ensures |r| <= |files|
    ensures forall f :: f in r ==> f in files && Shown(f, foldersOnly, onlyImages)
    ensures forall f :: f in files && Shown(f, foldersOnly, onlyImages) ==> f in r
    ensures !foldersOnly || onlyImages ==> r == files
  {
    if |files| == 0 then []
    else
      var rest := Kept(files[1..], foldersOnly, onlyImages);
      assert forall f :: f in files ==> f == files[0] || f in files[1..];
      assert files == [files[0]] + files[1..];
      if Shown(files[0], foldersOnly, onlyImages) then [files[0]] + rest else rest
  }

  /** Listing order and multiplicity are kept: filtering a concatenation
      concatenates the filtered parts. */
  lemma {:induction false} KeptAppend(a: seq<Entry>, b: seq<Entry>, foldersOnly: bool, onlyImages: bool)
    ensures Kept(a + b, foldersOnly, onlyImages) == Kept(a, foldersOnly, onlyImages) + Kept(b, foldersOnly, onlyImages)
    decreases |a|
  {
    if |a| == 0 {
      assert a + b == b;
    } else {
      assert (a + b)[0] == a[0];
      assert (a + b)[1..] == a[1..] + b;
      KeptAppend(a[1..], b, foldersOnly, onlyImages);
    }
  }

  /** A single entry is kept exactly when it is shown. */
  lemma KeptOne(f: Entry, foldersOnly: bool, onlyImages: bool)
    ensures Kept([f], foldersOnly, onlyImages) == if Shown(f, foldersOnly, onlyImages) then [f] else []
  {
    assert [f][1..] == [];
  }

  /** The tree node for one entry: a fresh FileNode, and for a directory the
      nodes addDirectories adds below it. */
  function NodeFor(file: Entry, foldersOnly: bool): (t: Tree)
    ensures t.node == NewFileNode(file.name, file.path)
    ensures !IsDirectory(file) ==> t.children == []
    decreases file, 1
  {
    Node(NewFileNode(file.name, file.path), AddDirectories(file, foldersOnly))
  }

  /** addDirectories(node, directory): one child per kept entry of the listing,
      in listing order; nothing when listFiles gives null. */
  function AddDirectories(dir: Entry, foldersOnly: bool): (ts: seq<Tree>)
    ensures !dir.kind.Directory? ==> ts == []
    ensures dir.kind.Directory? ==>
              var files := dir.kind.listing;
              var kept := Kept(files, foldersOnly, ContainsOnlyImages(files));
              |ts| == |kept|
              && forall i :: 0 <= i < |ts| ==> kept[i] in files && ts[i] == NodeFor(kept[i], foldersOnly)
    decreases dir, 0
  {
    match dir.kind
    case Directory(files) =>
      var kept := Kept(files, foldersOnly, ContainsOnlyImages(files));
      assert forall i :: 0 <= i < |kept| ==> kept[i] in files;
      seq(|kept|, i requires 0 <= i < |kept| => NodeFor(kept[i], foldersOnly))
    case _ => []
  }

  /** With folders-only off, a directory's children are exactly its listing,
      in order, named and pathed after the entries. */
  lemma AllEntriesShownWhenFoldersOff(dir: Entry)
    requires dir.kind.Directory?
    ensures var files := dir.kind.listing;
            var ts := AddDirectories(dir, false);
            |ts| == |files| && forall i :: 0 <= i < |ts| ==> ts[i].node == NewFileNode(files[i].name, files[i].path)
  {
  }

  /** With folders-only on, a child that is not a directory appears only when
      its listing holds nothing but image files. */
  lemma FoldersOnlyHidesMixedFiles(dir: Entry, i: int)
    requires dir.kind.Directory?
    requires !ContainsOnlyImages(dir.kind.listing)
    requires 0 <= i < |AddDirectories(dir, true)|
    ensures exists f :: f in dir.kind.listing && IsDirectory(f)
                        && AddDirectories(dir, true)[i] == NodeFor(f, true)
  {
    var files := dir.kind.listing;
    var kept := Kept(files, true, ContainsOnlyImages(files));
    assert kept[i] in kept;
  }

  // ---------------------------------------------------------------------
  // updateImageName

  /** depthFirstEnumeration order: every subtree, left to right, then the node. */
  function PostOrder(t: Tree): seq<FileNode>
    decreases t, 1
  {
    PostOrderAll(t.children) + [t.node]
  }

  function PostOrderAll(ts: seq<Tree>): seq<FileNode>
    decreases ts, 0
  {
    if |ts| == 0 then [] else PostOrder(ts[0]) + PostOrderAll(ts[1..])
  }

  predicate HasPath(s: seq<FileNode>, path: string)
  {
    exists i :: 0 <= i < |s| && s[i].filePath == path
  }

  /** updateImageName's target in enumeration order: the first node whose path
      matches is replaced by n. */
  function ReplaceFirst(s: seq<FileNode>, path: string, n: FileNode): (r: seq<FileNode>)
    ensures |r| == |s|
  {
    if |s| == 0 then []
    else if s[0].filePath == path then [n] + s[1..]
    else [s[0]] + ReplaceFirst(s[1..], path, n)
  }

  lemma {:induction false} ReplaceFirstNoMatch(s: seq<FileNode>, path: string, n: FileNode)
    requires !HasPath(s, path)
    ensures ReplaceFirst(s, path, n) == s
  {
    if |s| > 0 {
      assert s[0].filePath != path;
      ReplaceFirstNoMatch(s[1..], path, n);
      assert [s[0]] + s[1..] == s;
    }
  }

  /** The position updateImageName picks: the first one whose path matches. */
  predicate FirstMatch(s: seq<FileNode>, path: string, k: int)
  {
    0 <= k < |s| && s[k].filePath == path && forall j :: 0 <= j < k ==> s[j].filePath != path
  }

  lemma {:induction false} ReplaceFirstMatch(s: seq<FileNode>, path: string, n: FileNode, k: int)
    requires FirstMatch(s, path, k)
    ensures ReplaceFirst(s, path, n) == s[k := n]
  {
    if k > 0 {
      assert s[0].filePath != path;
      assert FirstMatch(s[1..], path, k - 1) by {
        assert forall j :: 0 <= j < k - 1 ==> s[1..][j] == s[j + 1];
      }
      ReplaceFirstMatch(s[1..], path, n, k - 1);
      assert [s[0]] + s[1..][k - 1 := n] == s[k := n];
    } else {
      assert [n] + s[1..] == s[0 := n];
    }
  }

  /** Without a match nothing changes; with one, exactly the first matching
      position is replaced and every other node stays in place. */
  lemma ReplaceFirstSpec(s: seq<FileNode>, path: string, n: FileNode)
    ensures !HasPath(s, path) ==> ReplaceFirst(s, path, n) == s
    ensures HasPath(s, path) ==>
              exists k :: FirstMatch(s, path, k) && ReplaceFirst(s, path, n) == s[k := n]
  {
    if HasPath(s, path) {
      var k := FirstIndex(s, path);
      ReplaceFirstMatch(s, path, n, k);
    } else {
      ReplaceFirstNoMatch(s, path, n);
    }
  }

  function FirstIndex(s: seq<FileNode>, path: string): (k: int)
    requires HasPath(s, path)
    ensures FirstMatch(s, path, k)
  {
    if s[0].filePath == path then 0
    else
      assert HasPath(s[1..], path) by {
        var i :| 0 <= i < |s| && s[i].filePath == path;
        assert s[1..][i - 1] == s[i];
      }
      var k := FirstIndex(s[1..], path);
      assert forall j :: 1 <= j < k + 1 ==> s[j] == s[1..][j - 1];
      k + 1
  }

  lemma HasPathAppend(a: seq<FileNode>, b: seq<FileNode>, path: string)
    ensures HasPath(a + b, path) <==> HasPath(a, path) || HasPath(b, path)
  {
    if HasPath(a, path) {
      var i :| 0 <= i < |a| && a[i].filePath == path;
      assert (a + b)[i] == a[i];
    }
    if HasPath(b, path) {
      var i :| 0 <= i < |b| && b[i].filePath == path;
      assert (a + b)[|a| + i] == b[i];
    }
    if HasPath(a + b, path) {
      var i :| 0 <= i < |a + b| && (a + b)[i].filePath == path;
      if i >= |a| { assert b[i - |a|] == (a + b)[i]; } else { assert a[i] == (a + b)[i]; }
    }
  }

  /** Replacing the first match in a concatenation acts on the left part when it
      has a match, otherwise on the right part. */
  lemma {:induction false} ReplaceFirstAppend(a: seq<FileNode>, b: seq<FileNode>, path: string, n: FileNode)
    ensures ReplaceFirst(a + b, path, n)
         == if HasPath(a, path) then ReplaceFirst(a, path, n) + b else a + ReplaceFirst(b, path, n)
    decreases |a|
  {
    if |a| == 0 {
      assert a + b == b;
      assert !HasPath(a, path);
    } else {
      assert (a + b)[0] == a[0];
      assert (a + b)[1..] == a[1..] + b;
      if a[0].filePath != path {
        ReplaceFirstAppend(a[1..], b, path, n);
        HasPathAppend([a[0]], a[1..], path);
        assert [a[0]] + a[1..] == a;
        assert !HasPath([a[0]], path);
      } else {
        assert HasPath(a, path);
      }
    }
  }

  /** updateImageName's search over one subtree: the renamed subtree and
      whether a match was found. */
  function RenameTree(t: Tree, oldPath: string, n: FileNode): (r: (Tree, bool))
    ensures !r.1 ==> r.0 == t
    decreases t, 1
  {
    var (cs, found) := RenameForest(t.children, oldPath, n);
    if found then (Node(t.node, cs), true)
    else if t.node.filePath == oldPath then (Node(n, t.children), true)
    else (t, false)
  }

  function RenameForest(ts: seq<Tree>, oldPath: string, n: FileNode): (r: (seq<Tree>, bool))
    ensures !r.1 ==> r.0 == ts
    ensures |r.0| == |ts|
    decreases ts, 0
  {
    if |ts| == 0 then ([], false)
    else
      var (h, found) := RenameTree(ts[0], oldPath, n);
      if found then ([h] + ts[1..], true)
      else
        var (rest, found2) := RenameForest(ts[1..], oldPath, n);
        ([ts[0]] + rest, found2)
  }

  /** updateImageName(oldFile, newFile): the first node, in depth-first
      enumeration, whose path is the old path becomes FileNode(newName, newPath). */
  function UpdateImageName(t: Tree, oldPath: string, newName: string, newPath: string): Tree
  {
    RenameTree(t, oldPath, NewFileNode(newName, newPath)).0
  }

  lemma {:induction false} RenameTreeSpec(t: Tree, oldPath: string, n: FileNode)
    ensures RenameTree(t, oldPath, n).1 == HasPath(PostOrder(t), oldPath)
    ensures PostOrder(RenameTree(t, oldPath, n).0) == ReplaceFirst(PostOrder(t), oldPath, n)
    decreases t, 1
  {
    RenameForestSpec(t.children, oldPath, n);
    var a := PostOrderAll(t.children);
    HasPathAppend(a, [t.node], oldPath);
    ReplaceFirstAppend(a, [t.node], oldPath, n);
  }

  lemma {:induction false} RenameForestSpec(ts: seq<Tree>, oldPath: string, n: FileNode)
    ensures RenameForest(ts, oldPath, n).1 == HasPath(PostOrderAll(ts), oldPath)
    ensures PostOrderAll(RenameForest(ts, oldPath, n).0) == ReplaceFirst(PostOrderAll(ts), oldPath, n)
    decreases ts, 0
  {
    if |ts| > 0 {
      RenameTreeSpec(ts[0], oldPath, n);
      RenameForestSpec(ts[1..], oldPath, n);
      var a, b := PostOrder(ts[0]), PostOrderAll(ts[1..]);
      HasPathAppend(a, b, oldPath);
      ReplaceFirstAppend(a, b, oldPath, n);
      var (h, found) := RenameTree(ts[0], oldPath, n);
      if found {
        assert ([h] + ts[1..])[1..] == ts[1..];
      } else {
        var (rest, found2) := RenameForest(ts[1..], oldPath, n);
        assert ([ts[0]] + rest)[1..] == rest;
      }
    }
  }

  /** The enumeration of the renamed tree is the old enumeration with its
      first matching node replaced; with no match the tree is unchanged. */
  lemma UpdateImageNameSpec(t: Tree, oldPath: string, newName: string, newPath: string)
    ensures PostOrder(UpdateImageName(t, oldPath, newName, newPath))
         == ReplaceFirst(PostOrder(t), oldPath, NewFileNode(newName, newPath))
    ensures !HasPath(PostOrder(t), oldPath) ==> UpdateImageName(t, oldPath, newName, newPath) == t
  {
    RenameTreeSpec(t, oldPath, NewFileNode(newName, newPath));
  }

  /** The bare shape of a tree: how many children at every level. */
  datatype Shape = Shape(children: seq<Shape>)

  function ShapeOf(t: Tree): Shape
    decreases t, 1
  {
    Shape(ShapesOf(t.children))
  }

  function ShapesOf(ts: seq<Tree>): (r: seq<Shape>)
    ensures |r| == |ts|
    decreases ts, 0
  {
    if |ts| == 0 then [] else [ShapeOf(ts[0])] + ShapesOf(ts[1..])
  }

  lemma {:induction false} RenameTreeShape(t: Tree, oldPath: string, n: FileNode)
    ensures ShapeOf(RenameTree(t, oldPath, n).0) == ShapeOf(t)
    decreases t, 1
  {
    RenameForestShape(t.children, oldPath, n);
  }

  lemma {:induction false} RenameForestShape(ts: seq<Tree>, oldPath: string, n: FileNode)
    ensures ShapesOf(RenameForest(ts, oldPath, n).0) == ShapesOf(ts)
    decreases ts, 0
  {
    if |ts| > 0 {
      RenameTreeShape(ts[0], oldPath, n);
      RenameForestShape(ts[1..], oldPath, n);
      var (h, found) := RenameTree(ts[0], oldPath, n);
      if found {
        assert ([h] + ts[1..])[1..] == ts[1..];
      } else {
        var (rest, found2) := RenameForest(ts[1..], oldPath, n);
        assert ([ts[0]] + rest)[1..] == rest;
      }
    }
  }

  /** Renaming never changes the tree's shape. */
  lemma UpdateImageNameKeepsShape(t: Tree, oldPath: string, newName: string, newPath: string)
    ensures ShapeOf(UpdateImageName(t, oldPath, newName, newPath)) == ShapeOf(t)
  {
    RenameTreeShape(t, oldPath, NewFileNode(newName, newPath));
  }

  // ---------------------------------------------------------------------
  // Panel state: folders-only flag, current tree, current folder

  datatype ExplorerState = ExplorerState(showFoldersOnly: bool, tree: Tree, currentFolder: Option<string>)

  /** The constructor: the configured root folder, all entries shown, no folder selected. */
  function InitialState(root: Entry): (s: ExplorerState)
    ensures !s.showFoldersOnly && s.currentFolder.None?
    ensures s.tree.node == NewFileNode(root.name, root.path)
    ensures s.tree.children == AddDirectories(root, false)
  {
    ExplorerState(false, NodeFor(root, false), None)
  }

  function IsShowFoldersOnly(s: ExplorerState): bool
  {
    s.showFoldersOnly
  }

  /** updateTreeWithFolder: a new tree rooted at the folder under the current flag. */
  function UpdateTreeWithFolder(s: ExplorerState, folder: Entry): (s': ExplorerState)
    ensures s'.tree.node == NewFileNode(folder.name, folder.path)
    ensures s'.tree.children == AddDirectories(folder, s.showFoldersOnly)
    ensures s'.showFoldersOnly == s.showFoldersOnly && s'.currentFolder == s.currentFolder
  {
    s.(tree := NodeFor(folder, s.showFoldersOnly))
  }

  /** toggleFolderView: flip the flag and rebuild the tree from the configured
      root folder (not from a folder loaded later). */
  function ToggleFolderView(s: ExplorerState, root: Entry): (s': ExplorerState)
    ensures IsShowFoldersOnly(s') == !IsShowFoldersOnly(s)
    ensures s'.tree.node == NewFileNode(root.name, root.path)
    ensures s'.tree.children == AddDirectories(root, s'.showFoldersOnly)
    ensures s'.currentFolder == s.currentFolder
  {
    var flag := !s.showFoldersOnly;
    s.(showFoldersOnly := flag, tree := NodeFor(root, flag))
  }

  /** Toggling twice restores the flag, and the tree too when it was built from
      the configured root under the current flag. */
  lemma ToggleTwice(s: ExplorerState, root: Entry)
    ensures IsShowFoldersOnly(ToggleFolderView(ToggleFolderView(s, root), root)) == IsShowFoldersOnly(s)
    ensures s.tree == NodeFor(root, s.showFoldersOnly) ==>
              ToggleFolderView(ToggleFolderView(s, root), root) == s
  {
  }

  /** What the selection listener is told. */
  datatype Notification = ImageSelected(image: string) | FolderSelected(folder: string) | Silent

  /** The tree-selection listener, given the filesystem's facts for the selected
      node's path and that path's parent. */
  function Select(s: ExplorerState, selected: Entry, parentPath: string): (r: (ExplorerState, Notification))
    ensures IsFile(selected) && IsImageFile(selected.name) ==>
              r.0.currentFolder == Some(parentPath) && r.1 == ImageSelected(selected.path)
    ensures IsDirectory(selected) ==>
              r.0.currentFolder == Some(selected.path) && r.1 == FolderSelected(selected.path)
    ensures !(IsFile(selected) && IsImageFile(selected.name)) && !IsDirectory(selected) ==>
              r == (s, Silent)
    ensures r.0.tree == s.tree && r.0.showFoldersOnly == s.showFoldersOnly
  {
    if IsFile(selected) && IsImageFile(selected.name) then
      (s.(currentFolder := Some(parentPath)), ImageSelected(selected.path))
    else if IsDirectory(selected) then
      (s.(currentFolder := Some(selected.path)), FolderSelected(selected.path))
    else (s, Silent)
  }

  /** Selecting an image and then the folder that holds it leaves the same
      current folder, and only the notification differs. */
  lemma SelectImageThenItsFolder(s: ExplorerState, image: Entry, folder: Entry, grandParent: string)
    requires IsFile(image) && IsImageFile(image.name)
    requires IsDirectory(folder)
    ensures var (s1, n1) := Select(s, image, folder.path);
            var (s2, n2) := Select(s1, folder, grandParent);
            s2 == s1 && s1.currentFolder == Some(folder.path)
            && n1 == ImageSelected(image.path) && n2 == FolderSelected(folder.path)
  {
  }
}

=== FILE: filenames.dfy ===
/** File-name rules: the two "is this an image" suffix tests and the
    extension-keeping rename rule of the file table. */
module FileNames {
  import opened Text

  /** The suffixes FolderExplorerPanel.isImageFile (and its copy in
      ImageTablePanel) looks for. No dot is part of them. */
  const ExplorerExtensions: seq<string> := ["jpg", "jpeg", "png", "gif", "bmp", "tiff", "webp"]

  /** ImageAnalyzer.SUPPORTED_FORMATS; each is matched with a leading dot. */
  const SupportedFormats: seq<string> := ["png", "jpg", "jpeg", "gif", "bmp"]

  /** The loop "for each suffix, if s ends with it return true; return false". */
  function EndsWithAny(s: string, suffixes: seq<string>): (b: bool)
    ensures b <==> exists i :: 0 <= i < |suffixes| && EndsWith(s, suffixes[i])
  {
    if |suffixes| == 0 then false
    else if EndsWith(s, suffixes[0]) then true
    else
      var b := EndsWithAny(s, suffixes[1..]);
      assert forall i :: 1 <= i < |suffixes| ==> suffixes[i] == suffixes[1..][i - 1];
      b
  }

  /** FolderExplorerPanel.isImageFile: the lower-cased name ends with one of
      the seven extensions. */
  predicate IsImageFile(name: string)
  {
    EndsWithAny(Lower(name), ExplorerExtensions)
  }

  /** The analyzer's suffixes: each supported format behind a dot. */
  function DottedFormats(): (r: seq<string>)
    ensures |r| == |SupportedFormats|
    ensures forall i :: 0 <= i < |r| ==> r[i] == "." + SupportedFormats[i]
  {
    seq(|SupportedFormats|, i requires 0 <= i < |SupportedFormats| => "." + SupportedFormats[i])
  }

  /** ImageAnalyzer.isImage: the lower-cased name ends with "." and one of the
      five supported formats. */
  predicate IsImage(name: string)
  {
    EndsWithAny(Lower(name), DottedFormats())
  }

  /** Every name the analyzer accepts, the explorer accepts too. */
  lemma IsImageImpliesIsImageFile(name: string)
    ensures IsImage(name) ==> IsImageFile(name)
  {
    if IsImage(name) {
      var s := Lower(name);
      var fs := DottedFormats();
      var i :| 0 <= i < |fs| && EndsWith(s, fs[i]);
      var ext := SupportedFormats[i];
      assert EndsWith(fs[i], ext) by {
        assert fs[i] == "." + ext;
        assert fs[i][|fs[i]| - |ext|..] == ext;
      }
      EndsWithTrans(s, fs[i], ext);
      var k := if i == 0 then 2 else if i == 1 then 0 else if i == 2 then 1 else if i == 3 then 3 else 4;
      assert ExplorerExtensions[k] == ext;
    }
  }

  /** A suffix test fails when some character, k places from the end,
      differs from every candidate's character at the same place. */
  lemma NotEndsWithAnyAt(s: string, suffixes: seq<string>, k: nat)
    requires k < |s|
    requires forall i :: 0 <= i < |suffixes| ==>
               |suffixes[i]| > k && suffixes[i][|suffixes[i]| - 1 - k] != s[|s| - 1 - k]
    ensures !EndsWithAny(s, suffixes)
  {
    forall i | 0 <= i < |suffixes|
      ensures !EndsWith(s, suffixes[i])
    {
    }
  }

  /** A suffix test succeeds when the characters line up one by one. */
  lemma EndsWithByChars(s: string, suffix: string)
    requires |suffix| <= |s|
    requires forall j :: 0 <= j < |suffix| ==> s[|s| - |suffix| + j] == suffix[j]
    ensures EndsWith(s, suffix)
  {
  }

  /** The converse fails: webp is not an analyzer format. */
  lemma WebpIsNotAnalyzerImage()
    ensures IsImageFile("a.webp") && !IsImage("a.webp")
  {
    EndsWithByChars(Lower("a.webp"), ExplorerExtensions[6]);
    NotEndsWithAnyAt(Lower("a.webp"), DottedFormats(), 1);
  }

  /** The converse fails: the explorer needs no dot before the extension. */
  lemma UndottedIsNotAnalyzerImage()
    ensures IsImageFile("ajpg") && !IsImage("ajpg")
  {
    EndsWithByChars(Lower("ajpg"), ExplorerExtensions[0]);
    NotEndsWithAnyAt(Lower("ajpg"), DottedFormats(), 3);
  }

  /** The explorer's unit test cases that are images: case does not matter. */
  lemma IsImageFileAccepts()
    ensures IsImageFile("test.jpg") && IsImageFile("test.PNG") && IsImageFile("test.webp")
  {
    EndsWithByChars(Lower("test.jpg"), ExplorerExtensions[0]);
    EndsWithByChars(Lower("test.PNG"), ExplorerExtensions[2]);
    EndsWithByChars(Lower("test.webp"), ExplorerExtensions[6]);
  }

  /** The explorer's unit test cases that are not images: no listed extension
      ends the name. */
  lemma IsImageFileRejects()
    ensures !IsImageFile("test.txt") && !IsImageFile("test.doc") && !IsImageFile("test")
  {
    NotEndsWithAnyAt(Lower("test.txt"), ExplorerExtensions, 0);
    NotEndsWithAnyAt(Lower("test.doc"), ExplorerExtensions, 0);
    NotEndsWithAnyAt(Lower("test"), ExplorerExtensions, 0);
  }

  /** The extension handleNameChange keeps: the suffix from the last dot, but
      only when that dot is not the first character. */
  function Extension(original: string): (ext: string)
    ensures ext == "" <==> forall k :: 0 < k < |original| ==> original[k] != '.'
    ensures ext != "" ==> |ext| < |original| && EndsWith(original, ext) && ext[0] == '.'
    ensures forall k :: 0 < k < |ext| ==> ext[k] != '.'
  {
    var i := LastIndexOf(original, '.');
    if i > 0 then original[i..] else ""
  }

  /** The name a rename targets: the typed name, with the original's extension
      appended unless the typed name already ends with it. */
  function FinalName(original: string, newName: string): (r: string)
    ensures Extension(original) != "" ==> EndsWith(r, Extension(original))
    ensures r == newName || r == newName + Extension(original)
    ensures EndsWith(newName, Extension(original)) ==> r == newName
  {
    var ext := Extension(original);
    if ext != "" && !EndsWith(newName, ext) then newName + ext else newName
  }

  /** Applying the rule to its own result changes nothing. */
  lemma FinalNameIdempotent(original: string, newName: string)
    ensures FinalName(original, FinalName(original, newName)) == FinalName(original, newName)
  {
    var ext := Extension(original);
    if ext != "" && !EndsWith(newName, ext) {
      var r := newName + ext;
      assert r[|r| - |ext|..] == ext;
    }
  }

  /** Typing only the stem of a name targets the original name itself, and
      an upper-case extension does not count as the original's. */
  lemma StemTargetsOriginal()
    ensures FinalName("photo.jpg", "photo") == "photo.jpg"
    ensures FinalName("photo.jpg", "beach.JPG") == "beach.JPG.jpg"
  {
    var s := "photo.jpg";
    assert s[5] == '.' && s[6] != '.' && s[7] != '.' && s[8] != '.';
    var ext := Extension(s);
    assert ext == ".jpg";
    assert "beach.JPG"[6] != ext[1];
    EndsWithByChars("photo", "");
  }
}

=== FILE: filenode.dfy ===
/** FileNode: the user object of every folder-tree node. */
module FileNodes {

  datatype FileNode = FileNode(name: string, filePath: string, expanded: bool)

  /** new FileNode(name, path): expanded starts false. */
  function NewFileNode(name: string, path: string): (n: FileNode)
    ensures n.name == name && n.filePath == path && !n.expanded
  {
    FileNode(name, path, false)
  }

  function GetName(n: FileNode): string { n.name }
  function GetFilePath(n: FileNode): string { n.filePath }
  function IsExpanded(n: FileNode): bool { n.expanded }

  /** toString: the display name, nothing else. */
  function ToString(n: FileNode): (s: string)
    ensures s == GetName(n)
  {
    n.name
  }

  function SetName(n: FileNode, name: string): (m: FileNode)
    ensures GetName(m) == name
    ensures GetFilePath(m) == GetFilePath(n) && IsExpanded(m) == IsExpanded(n)
  {
    n.(name := name)
  }

  function SetFilePath(n: FileNode, path: string): (m: FileNode)
    ensures GetFilePath(m) == path
    ensures GetName(m) == GetName(n) && IsExpanded(m) == IsExpanded(n)
  {
    n.(filePath := path)
  }

  function SetExpanded(n: FileNode, expanded: bool): (m: FileNode)
    ensures IsExpanded(m) == expanded
    ensures GetName(m) == GetName(n) && GetFilePath(m) == GetFilePath(n)
  {
    n.(expanded := expanded)
  }

  /** The three setters commute, because each touches one field, and together
      they determine the whole node. */
  lemma SettersCommute(n: FileNode, name: string, path: string, e: bool)
    ensures SetName(SetFilePath(SetExpanded(n, e), path), name)
         == SetExpanded(SetFilePath(SetName(n, name), path), e)
    ensures SetName(SetFilePath(SetExpanded(n, e), path), name) == FileNode(name, path, e)
  {
  }
}

=== FILE: fs.dfy ===
/** What the library asks the filesystem and its collaborators about a path:
    kind, listing, timestamps, size, and what the image codec and the metadata
    reader make of the file. These answers are inputs of the model. */
module Fs {
  import opened Wrappers
  import opened Exif

  /** ImageIO.read: a decoded image, null (no reader for the format), or an
      IOException. */
  datatype Decoded = Decoded(width: int, height: int) | NoReader | ReadFailed

  /** File.isFile / isDirectory / exists, with the directory's listFiles
      answer; Unlisted is a directory whose listFiles returns null. */
  datatype Kind = RegularFile | Directory(listing: seq<Entry>) | Unlisted | Missing | Special

  /** One path and everything the library can learn about it. metadata is
      Imaging.getMetadata, Failure when it throws. */
  datatype Entry = Entry(
    name: string,
    path: string,
    kind: Kind,
    lastModified: int,
    length: nat,
    decoded: Decoded,
    metadata: Result<Metadata, string>)

  predicate IsFile(e: Entry) { e.kind.RegularFile? }
  predicate IsDirectory(e: Entry) { e.kind.Directory? || e.kind.Unlisted? }
  predicate Exists(e: Entry) { !e.kind.Missing? }

  /** The children listFiles reports, or nothing when it is not a directory or
      the listing failed. */
  function Children(e: Entry): (cs: seq<Entry>)
    ensures !IsDirectory(e) ==> cs == []
    ensures e.kind.Unlisted? ==> cs == []
    ensures e.kind.Directory? ==> cs == e.kind.listing
  {
    if e.kind.Directory? then e.kind.listing else []
  }
}

=== FILE: imageinfo.dfy ===
/** ImageInfo: the per-file record the analyzer builds and the table shows. */
module ImageRecords {
  import opened Wrappers
  import opened Text
  import opened Dates
  import opened Exif
  import opened Fs

  /** The fields of ImageInfo. lastModified stays in epoch milliseconds; its
      conversion to a zoned LocalDateTime is not modelled. */
  datatype ImageInfo = ImageInfo(
    name: string,
    path: string,
    width: int,
    height: int,
    lastModified: int,
    sizeBytes: nat,
    captureDate: Option<Dates.DateTime>)

  /** The capture-date block of the constructor: only JPEG metadata with an
      EXIF directory holding a text TIFF DateTime field in the
      "yyyy:MM:dd HH:mm:ss" layout yields a date. Every exception on the way
      (reading metadata, a missing EXIF block, a non-text field, a parse
      error) is caught and leaves the date null. */
  function CaptureDate(metadata: Result<Metadata, string>): (d: Option<Dates.DateTime>)
    ensures d.Some? <==>
              (&& metadata.Success? && metadata.value.JpegMetadata?
               && metadata.value.exif.Some? && TiffDateTime in metadata.value.exif.value
               && metadata.value.exif.value[TiffDateTime].Ascii?
               && Parse(metadata.value.exif.value[TiffDateTime].text, ExifSeparator).Some?)
    ensures d.Some? ==> (Valid(d.value)
                         && Format(d.value, ExifSeparator) == metadata.value.exif.value[TiffDateTime].text)
  {
    match metadata
    case Success(JpegMetadata(Some(exif))) =>
      if TiffDateTime in exif then
        match StringValue(exif[TiffDateTime])
        case Success(text) =>
          var d := Parse(text, ExifSeparator);
          if d.Some? then
            FormatParse(text, ExifSeparator);
            d
          else None
        case Failure(_) => None
      else None
    case _ => None
  }

  /** A TIFF DateTime field written in the layout updateMetadata uses for
      DateTimeOriginal reads back as the same date-time. The two tags differ,
      so this is a round trip of the layout, not of the stored field. */
  lemma CaptureDateReadsWriterLayout(exif: Directory, d: Dates.DateTime, width: int, height: int)
    requires Valid(d)
    ensures CaptureDate(Success(JpegMetadata(Some(exif[TiffDateTime := UpdateMetadata(d, width, height)[DateTimeOriginal]]))))
         == Some(d)
  {
  }

  /** new ImageInfo(file, width, height). */
  function NewImageInfo(file: Entry, width: int, height: int): (info: ImageInfo)
    ensures info.name == file.name && info.path == file.path
    ensures info.width == width && info.height == height
    ensures info.sizeBytes == file.length && info.lastModified == file.lastModified
    ensures info.captureDate.Some? ==> file.metadata.Success? && file.metadata.value.JpegMetadata?
    ensures info.captureDate == CaptureDate(file.metadata)
  {
    ImageInfo(file.name, file.path, width, height, file.lastModified, file.length, CaptureDate(file.metadata))
  }

  /** getFormattedSize below 1024 bytes: the decimal size and " B". */
  function FormattedSmallSize(info: ImageInfo): (s: string)
    requires info.sizeBytes < 1024
    ensures EndsWith(s, " B")
    ensures forall i :: 0 <= i < |s| - 2 ==> IsDigit(s[i])
    ensures |s| > 2 && DecimalValue(s[..|s| - 2]) == info.sizeBytes
  {
    var digits := NatToString(info.sizeBytes);
    NatToStringRoundTrip(info.sizeBytes);
    var s := digits + " B";
    assert s[..|s| - 2] == digits;
    s
  }
}

=== FILE: pixels.dfy ===
/** Pixel buffers and the brightness / contrast / saturation adjustment of the
    image preview panel. */
module Pixels {

  /** One pixel as java.awt.Color splits it: red, green and blue channels. */
  datatype RGB = RGB(r: int, g: int, b: int)

  /** A pixel buffer, row by row: grid[y][x]. */
  type Grid = seq<seq<RGB>>

  predicate InChannelRange(v: int)
  {
    0 <= v <= 255
  }

  predicate ValidPixel(p: RGB)
  {
    InChannelRange(p.r) && InChannelRange(p.g) && InChannelRange(p.b)
  }

  /** Every row has the same width w, and there are h rows. */
  predicate Rectangular(grid: Grid, w: nat, h: nat)
  {
    |grid| == h && forall y :: 0 <= y < h ==> |grid[y]| == w
  }

  /** A decoded BufferedImage: positive width and height, channels in [0,255]. */
  predicate IsImage(grid: Grid)
  {
    && |grid| > 0 && |grid[0]| > 0
    && Rectangular(grid, |grid[0]|, |grid|)
    && forall y, x :: 0 <= y < |grid| && 0 <= x < |grid[y]| ==> ValidPixel(grid[y][x])
  }

  function Width(grid: Grid): nat
    requires |grid| > 0
  {
    |grid[0]|
  }

  function Height(grid: Grid): nat
  {
    |grid|
  }

  /** ImagePreviewPanel.clamp: the nearest value in [0,255]. */
  function Clamp(v: int): (r: int)
    ensures InChannelRange(r)
    ensures InChannelRange(v) ==> r == v
    ensures v < 0 ==> r == 0
    ensures v > 255 ==> r == 255
  {
    if v < 0 then 0 else if v > 255 then 255 else v
  }

  /** Java's (int) cast of a floating value: truncation toward zero. */
  function TruncToInt(x: real): (r: int)
    ensures 0.0 <= x ==> r as real <= x < r as real + 1.0
    ensures x < 0.0 ==> r as real - 1.0 < x <= r as real
  {
    if x >= 0.0 then x.Floor else -((-x).Floor)
  }

  /** The contrast factor 259(c+255) / (255(259-c)) for a slider value c. */
  function ContrastFactor(contrast: int): (f: real)
    requires -100 <= contrast <= 100
    ensures f > 0.0
    ensures contrast == 0 ==> f == 1.0
  {
    (259 * (contrast + 255)) as real / (255 * (259 - contrast)) as real
  }

  /** The contrast step applied to one channel. */
  function ContrastChannel(f: real, v: int): int
  {
    Clamp(TruncToInt(f * (v - 128) as real + 128.0))
  }

  /** The saturation step applied to one channel, around the pixel's gray value. */
  function SaturateChannel(gray: real, k: real, v: int): int
  {
    Clamp(TruncToInt(gray + (v as real - gray) * k))
  }

  /** The per-pixel body of applyAdjustments: brightness, then contrast, then
      saturation (skipped when the saturation slider is 0). */
  function AdjustPixel(p: RGB, brightness: int, contrast: int, saturation: int): (q: RGB)
    requires -100 <= contrast <= 100
    ensures ValidPixel(q)
  {
    var r1, g1, b1 := Clamp(p.r + brightness), Clamp(p.g + brightness), Clamp(p.b + brightness);
    var f := ContrastFactor(contrast);
    var r2, g2, b2 := ContrastChannel(f, r1), ContrastChannel(f, g1), ContrastChannel(f, b1);
    if saturation != 0 then
      var gray := (r2 + g2 + b2) as real / 3.0;
      var k := 1.0 + saturation as real / 100.0;
      RGB(SaturateChannel(gray, k, r2), SaturateChannel(gray, k, g2), SaturateChannel(gray, k, b2))
    else
      RGB(r2, g2, b2)
  }

  /** applyAdjustments as a whole-buffer function: a fresh buffer of the same
      shape, each pixel adjusted independently of its neighbours. */
  function Adjust(grid: Grid, brightness: int, contrast: int, saturation: int): (out: Grid)
    requires -100 <= contrast <= 100
    ensures |out| == |grid|
    ensures forall y :: 0 <= y < |grid| ==> |out[y]| == |grid[y]|
    ensures forall y, x :: 0 <= y < |out| && 0 <= x < |out[y]| ==> ValidPixel(out[y][x])
  {
    seq(|grid|, y requires 0 <= y < |grid| =>
      seq(|grid[y]|, x requires 0 <= x < |grid[y]| =>
        AdjustPixel(grid[y][x], brightness, contrast, saturation)))
  }

  /** With contrast 0 the contrast step leaves a channel in range unchanged. */
  lemma ContrastZeroKeeps(v: int)
    requires InChannelRange(v)
    ensures ContrastChannel(ContrastFactor(0), v) == v
  {
    assert ContrastFactor(0) * (v - 128) as real + 128.0 == v as real;
  }

  /** With contrast 0 and saturation 0 only brightness acts: each channel
      becomes clamp(c + brightness). */
  lemma BrightnessOnly(p: RGB, brightness: int)
    ensures AdjustPixel(p, brightness, 0, 0)
         == RGB(Clamp(p.r + brightness), Clamp(p.g + brightness), Clamp(p.b + brightness))
  {
    ContrastZeroKeeps(Clamp(p.r + brightness));
    ContrastZeroKeeps(Clamp(p.g + brightness));
    ContrastZeroKeeps(Clamp(p.b + brightness));
  }

  /** All-zero sliders give a pixel-identical copy of a decoded image. */
  lemma AdjustZeroIsIdentity(grid: Grid)
    requires IsImage(grid)
    ensures Adjust(grid, 0, 0, 0) == grid
  {
    var out := Adjust(grid, 0, 0, 0);
    forall y | 0 <= y < |grid|
      ensures out[y] == grid[y]
    {
      forall x | 0 <= x < |grid[y]|
        ensures out[y][x] == grid[y][x]
      {
        BrightnessOnly(grid[y][x], 0);
      }
    }
  }

  /** The brightness step is the only one that depends on the brightness slider
      when the others are at 0: raising a mid-gray 128 by 50 gives 178, and
      contrast 0 / saturation 0 keep it there. */
  lemma BrightenGrayExample()
    ensures AdjustPixel(RGB(128, 128, 128), 50, 0, 0) == RGB(178, 178, 178)
    ensures AdjustPixel(RGB(178, 178, 178), 0, 0, 0) == RGB(178, 178, 178)
  {
    BrightnessOnly(RGB(128, 128, 128), 50);
    BrightnessOnly(RGB(178, 178, 178), 0);
  }

  /** applyAdjustments: the nested loop over rows and columns of the source. */
  method ApplyAdjustments(grid: Grid, brightness: int, contrast: int, saturation: int)
    returns (out: Grid)
    requires -100 <= contrast <= 100
    ensures |out| == |grid|
    ensures forall y :: 0 <= y < |grid| ==> |out[y]| == |grid[y]|
    ensures forall y, x :: 0 <= y < |grid| && 0 <= x < |grid[y]| ==>
              out[y][x] == AdjustPixel(grid[y][x], brightness, contrast, saturation)
    ensures out == Adjust(grid, brightness, contrast, saturation)
  {
    out := [];
    var y := 0;
    while y < |grid|
      invariant 0 <= y <= |grid|
      invariant |out| == y
      invariant forall j :: 0 <= j < y ==> |out[j]| == |grid[j]|
      invariant forall j, x :: 0 <= j < y && 0 <= x < |grid[j]| ==>
                  out[j][x] == AdjustPixel(grid[j][x], brightness, contrast, saturation)
    {
      var row: seq<RGB> := [];
      var x := 0;
      while x < |grid[y]|
        invariant 0 <= x <= |grid[y]|
        invariant |row| == x
        invariant forall i :: 0 <= i < x ==> row[i] == AdjustPixel(grid[y][i], brightness, contrast, saturation)
      {
        row := row + [AdjustPixel(grid[y][x], brightness, contrast, saturation)];
        x := x + 1;
      }
      out := out + [row];
      y := y + 1;
    }
    var a := Adjust(grid, brightness, contrast, saturation);
    forall j | 0 <= j < |grid|
      ensures out[j] == a[j]
    {
    }
  }
}

=== FILE: preview.dfy ===
/** ImagePreviewPanel's document state: the decoded buffer and zoom, the crop
    gesture, fit-to-container zoom, the save format and the description
    area. */
module Preview {
  import opened Wrappers
  import opened Text
  import opened Pixels
  import opened Cropping
  import opened Descriptions
  import FileNames

  /** The current image file: getName and getAbsolutePath. */
  datatype FileRef = FileRef(name: string, path: string)

  /** The fields the operations below read and write. cropping is isCropping,
      which is also exactly when the crop mouse adapter is attached. */
  datatype PanelState = PanelState(
    image: Option<Grid>,
    zoom: real,
    currentImage: Option<FileRef>,
    cropping: bool,
    cropStart: Option<Point>,
    cropRect: Option<Rect>,
    descriptions: DescriptionMap,
    descriptionText: string)

  /** What the crop arithmetic needs: a positive zoom and, when an image is
      loaded, a well-formed buffer. */
  predicate Ready(s: PanelState)
  {
    s.zoom > 0.0 && (s.image.Some? ==> IsImage(s.image.value))
  }

  /** A fresh panel: no image, zoom 1.0, not cropping, no descriptions. */
  function InitialPanel(): (s: PanelState)
    ensures Ready(s) && !s.cropping && s.descriptions == map[]
    ensures s.image.None? && s.zoom == 1.0 && s.currentImage.None?
    ensures s.cropStart.None? && s.cropRect.None? && s.descriptionText == ""
  {
    PanelState(None, 1.0, None, false, None, None, map[], "")
  }

  // ---------------------------------------------------------------------
  // Crop gesture

  /** startCropping: refused with no image; otherwise cropping starts with no
      selection. */
  function StartCropping(s: PanelState): (r: PanelState)
    ensures s.image.None? ==> r == s
    ensures s.image.Some? ==> r.cropping && r.cropStart.None? && r.cropRect.None?
    ensures r.image == s.image && r.zoom == s.zoom
  {
    if s.image.None? then s
    else s.(cropping := true, cropRect := None, cropStart := None)
  }

  /** mousePressed on the adapter: an empty selection at the press point. */
  function MousePressed(s: PanelState, p: Point): (r: PanelState)
    ensures !s.cropping ==> r == s
    ensures s.cropping ==> r.cropStart == Some(p) && r.cropRect == Some(Rect(p.x, p.y, 0, 0))
    ensures r.image == s.image && r.zoom == s.zoom && r.cropping == s.cropping
  {
    if !s.cropping then s
    else s.(cropStart := Some(p), cropRect := Some(Rect(p.x, p.y, 0, 0)))
  }

  /** mouseDragged: the selection spans the press point and the cursor. */
  function MouseDragged(s: PanelState, p: Point): (r: PanelState)
    ensures !s.cropping || s.cropStart.None? ==> r == s
    ensures s.cropping && s.cropStart.Some? ==>
              r.cropRect.Some? && r.cropRect.value.width >= 0 && r.cropRect.value.height >= 0
              && r.cropRect.value.x == Min(p.x, s.cropStart.value.x)
              && r.cropRect.value.y == Min(p.y, s.cropStart.value.y)
              && r.cropRect.value.width == Abs(p.x - s.cropStart.value.x)
              && r.cropRect.value.height == Abs(p.y - s.cropStart.value.y)
    ensures r.image == s.image && r.zoom == s.zoom && r.cropping == s.cropping && r.cropStart == s.cropStart
  {
    if !s.cropping || s.cropStart.None? then s
    else s.(cropRect := Some(DragRect(s.cropStart.value, p)))
  }

  /** cleanupCropping: only the mode flag (and the adapter) goes; the selection
      fields are left as they are. */
  function Cleanup(s: PanelState): (r: PanelState)
    ensures !r.cropping
    ensures r.cropRect == s.cropRect && r.cropStart == s.cropStart && r.image == s.image && r.zoom == s.zoom
  {
    s.(cropping := false)
  }

  /** cancelCropping: the mode and the selection are cleared. */
  function CancelCropping(s: PanelState): (r: PanelState)
    ensures !r.cropping && r.cropRect.None? && r.cropStart.None?
    ensures r.image == s.image && r.zoom == s.zoom
  {
    s.(cropping := false, cropRect := None, cropStart := None)
  }

  /** applyCrop. Returns early, touching nothing, when there is no selection
      or no image. Otherwise the finally block clears the selection whether or
      not the mapped region has any area; when it has, the buffer becomes the
      region's pixels and the zoom 1.0. */
  function ApplyCrop(s: PanelState): (r: PanelState)
    requires Ready(s)
    ensures Ready(r)
    ensures s.cropRect.None? || s.image.None? ==> r == s
    ensures s.cropRect.Some? && s.image.Some? ==> r.cropRect.None? && r.cropStart.None?
    ensures s.cropRect.Some? && s.image.Some? ==>
              var img := s.image.value;
              match ToSource(s.cropRect.value, s.zoom, Width(img), Height(img))
              case None => r.image == s.image && r.zoom == s.zoom
              case Some(region) =>
                r.image == Some(Crop(img, region)) && r.zoom == 1.0
                && Width(r.image.value) == region.width && Height(r.image.value) == region.height
    ensures r.cropping == s.cropping && r.descriptions == s.descriptions
  {
    if s.cropRect.None? || s.image.None? then s
    else
      var img := s.image.value;
      var cleared := s.(cropRect := None, cropStart := None);
      match ToSource(s.cropRect.value, s.zoom, Width(img), Height(img))
      case None => cleared
      case Some(region) =>
        var out := Crop(img, region);
        cleared.(image := Some(out), zoom := 1.0)
  }

  /** mouseReleased: a crop is attempted only for a selection larger than
      MinCropSide on both sides; cropping mode ends either way. */
  function MouseReleased(s: PanelState): (r: PanelState)
    requires Ready(s)
    ensures Ready(r)
    ensures s.cropping ==> !r.cropping
    ensures !s.cropping ==> r == s
    ensures s.cropping && (s.cropRect.None? || !LargeEnough(s.cropRect.value)) ==> r == Cleanup(s)
    ensures s.cropping && s.cropRect.Some? && LargeEnough(s.cropRect.value) ==> r == Cleanup(ApplyCrop(s))
  {
    if !s.cropping then s
    else if s.cropRect.Some? && LargeEnough(s.cropRect.value) then Cleanup(ApplyCrop(s))
    else Cleanup(s)
  }

  /** Every gesture step keeps the state Ready. */
  lemma GestureKeepsReady(s: PanelState, p: Point)
    requires Ready(s)
    ensures Ready(StartCropping(s)) && Ready(MousePressed(s, p)) && Ready(MouseDragged(s, p))
    ensures Ready(Cleanup(s)) && Ready(CancelCropping(s))
  {
  }

  /** A release after a short drag leaves the image and zoom untouched. */
  lemma ShortDragKeepsImage(s: PanelState, start: Point, end: Point)
    requires Ready(s) && s.image.Some?
    requires Abs(end.x - start.x) <= MinCropSide || Abs(end.y - start.y) <= MinCropSide
    ensures var r := MouseReleased(MouseDragged(MousePressed(StartCropping(s), start), end));
            r.image == s.image && r.zoom == s.zoom && !r.cropping
  {
  }

  /** On a 20x20 image shown at zoom 2, dragging from (4,6) to (28,30) crops
      the 12x12 block at (2,3) and resets the zoom. */
  lemma CropAtZoomTwo(s: PanelState)
    requires Ready(s) && s.image.Some? && Width(s.image.value) == 20 && Height(s.image.value) == 20
    requires s.zoom == 2.0
    ensures var r := MouseReleased(MouseDragged(MousePressed(StartCropping(s), Point(4, 6)), Point(28, 30)));
            r.image == Some(Crop(s.image.value, Rect(2, 3, 12, 12))) && r.zoom == 1.0 && !r.cropping
  {
    assert DragRect(Point(4, 6), Point(28, 30)) == Rect(4, 6, 24, 24);
    assert Unzoom(4, 2.0) == 2 && Unzoom(6, 2.0) == 3 && Unzoom(24, 2.0) == 12;
  }

  // ---------------------------------------------------------------------
  // Zoom

  /** The default container when the preview has no parent. */
  const DefaultContainerWidth := 500
  const DefaultContainerHeight := 400

  /** calculateInitialZoom: the larger zoom at which the whole image fits the
      container, that is, the smaller of the two ratios. */
  function FitZoom(container: Option<(int, int)>, width: int, height: int): (z: real)
    requires width > 0 && height > 0
    ensures var (cw, ch) := if container.Some? then container.value else (DefaultContainerWidth, DefaultContainerHeight);
            && z * width as real <= cw as real && z * height as real <= ch as real
            && (z == cw as real / width as real || z == ch as real / height as real)
            && (z > 0.0 <==> cw > 0 && ch > 0)
  {
    var (cw, ch) := if container.Some? then container.value else (DefaultContainerWidth, DefaultContainerHeight);
    var sx := cw as real / width as real;
    var sy := ch as real / height as real;
    if sx <= sy then sx else sy
  }

  /** No larger zoom fits: FitZoom is the best fit. */
  lemma FitZoomIsLargest(container: Option<(int, int)>, width: int, height: int, z: real)
    requires width > 0 && height > 0
    requires var (cw, ch) := if container.Some? then container.value else (DefaultContainerWidth, DefaultContainerHeight);
             z * width as real <= cw as real && z * height as real <= ch as real
    ensures z <= FitZoom(container, width, height)
  {
    var (cw, ch) := if container.Some? then container.value else (DefaultContainerWidth, DefaultContainerHeight);
    var w, h := width as real, height as real;
    assert z <= cw as real / w by {
      assert z * w <= cw as real;
      assert (z * w) / w == z;
    }
    assert z <= ch as real / h by {
      assert z * h <= ch as real;
      assert (z * h) / h == z;
    }
  }

  /** With no parent a 1000x400 image is shown at half size. */
  lemma FitZoomDefaultContainer()
    ensures FitZoom(None, 1000, 400) == 0.5
  {
  }

  const ZoomInFactor: real := 1.25
  const ZoomOutFactor: real := 0.8

  function ZoomIn(s: PanelState): (r: PanelState)
    ensures r.zoom == s.zoom * ZoomInFactor && (r.zoom > s.zoom <==> s.zoom > 0.0)
    ensures r.image == s.image
  {
    s.(zoom := s.zoom * ZoomInFactor)
  }

  function ZoomOut(s: PanelState): (r: PanelState)
    ensures r.zoom == s.zoom * ZoomOutFactor && (r.zoom < s.zoom <==> s.zoom > 0.0)
    ensures r.image == s.image
  {
    s.(zoom := s.zoom * ZoomOutFactor)
  }

  /** Zooming in and then out returns to the starting zoom (exactly, over the
      reals), and both keep a positive zoom positive. */
  lemma ZoomInOutCancel(s: PanelState)
    ensures ZoomOut(ZoomIn(s)).zoom == s.zoom
    ensures ZoomIn(ZoomOut(s)).zoom == s.zoom
    ensures Ready(s) ==> Ready(ZoomIn(s)) && Ready(ZoomOut(s))
  {
  }

  // ---------------------------------------------------------------------
  // Saving

  /** The format argument saveImageChanges gives ImageIO.write. */
  function SaveFormat(name: string): (f: string)
    ensures f == "png" <==> EndsWith(Lower(name), ".png")
    ensures f == "png" || f == "jpg"
  {
    if EndsWith(Lower(name), ".png") then "png" else "jpg"
  }

  lemma SaveFormatExamples()
    ensures SaveFormat("shot.PNG") == "png"
    ensures SaveFormat("photo.jpeg") == "jpg"
    ensures SaveFormat("anim.gif") == "jpg"
  {
    assert Lower("shot.PNG")[4..] == ".png";
    assert Lower("photo.jpeg")[6..] != ".png" by { assert Lower("photo.jpeg")[6] != '.'; }
    assert Lower("anim.gif")[4..] != ".png" by { assert Lower("anim.gif")[5] != 'p'; }
  }

  /** What saveImageChanges does. */
  datatype SaveOutcome = NoImageSelected | Declined | Written(format: string, path: string)

  function SaveImageChanges(s: PanelState, confirmed: bool): (o: SaveOutcome)
    ensures o.Written? <==> s.currentImage.Some? && s.image.Some? && confirmed
    ensures o == NoImageSelected <==> s.currentImage.None? || s.image.None?
    ensures o.Written? ==> o.path == s.currentImage.value.path && o.format == SaveFormat(s.currentImage.value.name)
  {
    if s.currentImage.None? || s.image.None? then NoImageSelected
    else if !confirmed then Declined
    else
      var file := s.currentImage.value;
      Written(SaveFormat(file.name), file.path)
  }

  /** Saving a file the analyzer accepts under any extension but .png writes
      JPEG data under the file's own name, so a .gif, .bmp or .jpeg file is
      re-encoded as JPEG without being renamed. */
  lemma SaveReencodesAsJpeg(s: PanelState)
    requires s.currentImage.Some? && s.image.Some?
    requires FileNames.IsImage(s.currentImage.value.name)
    requires !EndsWith(Lower(s.currentImage.value.name), ".png")
    ensures SaveImageChanges(s, true) == Written("jpg", s.currentImage.value.path)
    ensures exists i :: 1 <= i < |FileNames.DottedFormats()| && EndsWith(Lower(s.currentImage.value.name), FileNames.DottedFormats()[i])
  {
    var name := Lower(s.currentImage.value.name);
    var i :| 0 <= i < |FileNames.DottedFormats()| && EndsWith(name, FileNames.DottedFormats()[i]);
    assert FileNames.DottedFormats()[0] == ".png";
    assert i != 0;
  }

  /** A .png file is written back as PNG under its own name. */
  lemma SaveKeepsPng(s: PanelState)
    requires s.currentImage.Some? && s.image.Some?
    requires EndsWith(Lower(s.currentImage.value.name), ".png")
    ensures SaveImageChanges(s, true) == Written("png", s.currentImage.value.path)
    ensures FileNames.IsImage(s.currentImage.value.name)
  {
    assert FileNames.DottedFormats()[0] == ".png";
  }

  // ---------------------------------------------------------------------
  // Description area

  function PathOf(f: Option<FileRef>): Option<string>
  {
    if f.Some? then Some(f.value.path) else None
  }

  /** saveDescription on the panel. */
  function SaveDescription(s: PanelState): (r: PanelState)
    ensures s.currentImage.None? ==> r == s
    ensures s.currentImage.Some? ==> Lookup(r.descriptions, s.currentImage.value.path) == Trim(s.descriptionText)
    ensures s.currentImage.Some? ==>
              forall k :: k != s.currentImage.value.path ==>
                (k in r.descriptions <==> k in s.descriptions) && Lookup(r.descriptions, k) == Lookup(s.descriptions, k)
    ensures r.image == s.image && r.zoom == s.zoom && r.descriptionText == s.descriptionText
  {
    s.(descriptions := Save(s.descriptions, PathOf(s.currentImage), s.descriptionText))
  }

  /** loadDescriptionForImage on the panel: the area shows the stored text or "". */
  function LoadDescriptionForImage(s: PanelState, file: FileRef): (r: PanelState)
    ensures r.descriptionText == Lookup(s.descriptions, file.path)
    ensures r.descriptions == s.descriptions && r.image == s.image
  {
    s.(descriptionText := Lookup(s.descriptions, file.path))
  }

  /** Saving a typed description and selecting the same image again shows the
      trimmed text; with no current image the save leaves the panel as it was. */
  lemma TypedDescriptionComesBack(s: PanelState, typed: string, file: FileRef)
    ensures var saved := SaveDescription(s.(currentImage := Some(file), descriptionText := typed));
            LoadDescriptionForImage(saved, file).descriptionText == Trim(typed)
    ensures SaveDescription(s.(currentImage := None)) == s.(currentImage := None)
  {
  }

  /** The text "Test description" has no surrounding blanks, so it is stored
      as typed. */
  lemma TestDescriptionStoredVerbatim(s: PanelState, file: FileRef)
    ensures var saved := SaveDescription(s.(currentImage := Some(file), descriptionText := "Test description"));
            saved.descriptions[file.path] == "Test description"
  {
    TrimFixed("Test description");
  }
}

=== FILE: table.dfy ===
/** ImageTablePanel: which cells can be edited, the numeric filter, the rename
    rule behind an edited name cell, the date edit, and the rows and
    originalNames built when a folder is shown. */
module ImageTable {
  import opened Wrappers
  import opened Text
  import opened Dates
  import opened Exif
  import opened FileNames
  import opened ImageRecords
  import Fs

  const NameColumn := 0
  const WidthColumn := 1
  const HeightColumn := 2
  const SizeColumn := 3
  const DateColumn := 4

  /** The table model's isCellEditable. */
  function IsCellEditable(row: int, column: int): (b: bool)
    ensures b ==> column !in {WidthColumn, HeightColumn, SizeColumn}
    ensures column in {NameColumn, DateColumn} ==> b
  {
    column == NameColumn || column == DateColumn
  }

  /** applyNumericFilter over longs; the comparison is exact so no width matters. */
  function NumericFilter(value: int, filterValue: int, filterType: string): (b: bool)
    ensures filterType == "Mayor que" ==> (b <==> value > filterValue)
    ensures filterType == "Menor que" ==> (b <==> value < filterValue)
    ensures filterType == "Igual a" ==> (b <==> value == filterValue)
    ensures filterType !in {"Mayor que", "Menor que", "Igual a"} ==> !b
  {
    match filterType
    case "Mayor que" => value > filterValue
    case "Menor que" => value < filterValue
    case "Igual a" => value == filterValue
    case _ => false
  }

  /** The numeric fields the filter dialog offers: "Tamaño en bytes",
      "Ancho (px)" and "Alto (px)". */
  datatype NumericField = SizeBytes | WidthPx | HeightPx

  /** The value a file has for the field: its length, or the decoded image's
      width or height. A file the codec cannot decode (null or an exception)
      has no width or height. */
  function FieldValue(f: Fs.Entry, field: NumericField): (v: Option<int>)
    ensures field == SizeBytes ==> v == Some(f.length)
    ensures field != SizeBytes ==> (v.Some? <==> f.decoded.Decoded?)
    ensures field == WidthPx && v.Some? ==> v.value == f.decoded.width
    ensures field == HeightPx && v.Some? ==> v.value == f.decoded.height
  {
    match field
    case SizeBytes => Some(f.length)
    case WidthPx => if f.decoded.Decoded? then Some(f.decoded.width) else None
    case HeightPx => if f.decoded.Decoded? then Some(f.decoded.height) else None
  }

  /** Whether the dialog's loop adds a file: listFiles lists it (its name
      passes isImageFile), the typed value parsed (None is the
      NumberFormatException every file then raises and the loop swallows),
      the file has a value for the field, and the comparison keeps it. */
  predicate PassesNumeric(f: Fs.Entry, field: NumericField, filterValue: Option<int>, filterType: string)
  {
    IsImageFile(f.name) && filterValue.Some? && FieldValue(f, field).Some?
    && NumericFilter(FieldValue(f, field).value, filterValue.value, filterType)
  }

  /** The numeric cases of applyFiltersDialog: the folder's raw listing is
      narrowed by isImageFile and then by the comparison; the passing files
      keep listing order (NumericFilterFilesAppend). */
  function NumericFilterFiles(files: seq<Fs.Entry>, field: NumericField, filterValue: Option<int>, filterType: string)
    : (r: seq<Fs.Entry>)
    ensures |r| <= |files|
    ensures forall f :: f in r ==> f in files && PassesNumeric(f, field, filterValue, filterType)
    ensures forall f :: f in files && PassesNumeric(f, field, filterValue, filterType) ==> f in r
    ensures filterValue.None? ==> r == []
  {
    if |files| == 0 then []
    else
      var rest := NumericFilterFiles(files[1..], field, filterValue, filterType);
      assert forall f :: f in files ==> f == files[0] || f in files[1..];
      if PassesNumeric(files[0], field, filterValue, filterType) then [files[0]] + rest else rest
  }

  /** Listing order and multiplicity are kept: filtering a concatenation
      concatenates the filtered parts. */
  lemma {:induction false} NumericFilterFilesAppend(a: seq<Fs.Entry>, b: seq<Fs.Entry>, field: NumericField,
                                                    filterValue: Option<int>, filterType: string)
    ensures NumericFilterFiles(a + b, field, filterValue, filterType)
         == NumericFilterFiles(a, field, filterValue, filterType) + NumericFilterFiles(b, field, filterValue, filterType)
    decreases |a|
  {
    if |a| == 0 {
      assert a + b == b;
    } else {
      assert (a + b)[0] == a[0];
      assert (a + b)[1..] == a[1..] + b;
      NumericFilterFilesAppend(a[1..], b, field, filterValue, filterType);
    }
  }

  /** Counting the three filter types' results: together they never exceed
      the listing, and for the size field over a listing of image files they
      add up to exactly the listing. */
  lemma {:induction false} NumericFilterPartition(files: seq<Fs.Entry>, field: NumericField, filterValue: int)
    ensures var v := Some(filterValue);
            |NumericFilterFiles(files, field, v, "Mayor que")| + |NumericFilterFiles(files, field, v, "Menor que")|
              + |NumericFilterFiles(files, field, v, "Igual a")| <= |files|
    ensures field == SizeBytes && (forall i :: 0 <= i < |files| ==> IsImageFile(files[i].name)) ==>
              var v := Some(filterValue);
              |NumericFilterFiles(files, field, v, "Mayor que")| + |NumericFilterFiles(files, field, v, "Menor que")|
                + |NumericFilterFiles(files, field, v, "Igual a")| == |files|
  {
    if |files| > 0 {
      assert forall i :: 0 <= i < |files[1..]| ==> files[1..][i] == files[i + 1];
      NumericFilterPartition(files[1..], field, filterValue);
    }
  }

  // ---------------------------------------------------------------------
  // Renaming from the name column

  /** The IOException messages handleNameChange raises. */
  datatype RenameError = OriginalMissing | TargetExists | RenameFailed

  /** handleNameChange's filesystem part: names present in the current folder,
      and whether File.renameTo succeeds. The result is the final name. */
  function Rename(existing: set<string>, originalName: string, newName: string, renameSucceeds: bool)
    : (r: Result<string, RenameError>)
    ensures r == Failure(OriginalMissing) <==> originalName !in existing
    ensures r == Failure(TargetExists) <==>
              originalName in existing && FinalName(originalName, newName) in existing
    ensures r.Success? <==>
              originalName in existing && FinalName(originalName, newName) !in existing && renameSucceeds
    ensures r.Success? ==> r.value == FinalName(originalName, newName)
  {
    var finalName := FinalName(originalName, newName);
    if originalName !in existing then Failure(OriginalMissing)
    else if finalName in existing then Failure(TargetExists)
    else if !renameSucceeds then Failure(RenameFailed)
    else Success(finalName)
  }

  /** The names in the folder after a rename attempt. */
  function RenamedFolder(existing: set<string>, originalName: string, r: Result<string, RenameError>): set<string>
  {
    if r.Success? then existing - {originalName} + {r.value} else existing
  }

  /** A successful rename moves exactly one name: the original leaves, the final
      name arrives, and every other name stays. */
  lemma RenameMovesOneName(existing: set<string>, originalName: string, newName: string)
    requires Rename(existing, originalName, newName, true).Success?
    ensures var r := Rename(existing, originalName, newName, true);
            var after := RenamedFolder(existing, originalName, r);
            originalName !in after && r.value in after && |after| == |existing|
            && forall n :: n != originalName && n != r.value ==> (n in after <==> n in existing)
  {
    var r := Rename(existing, originalName, newName, true);
    assert r.value != originalName;
    assert existing - {originalName} + {r.value} == (existing - {originalName}) + {r.value};
  }

  /** Typing only the stem of a name keeps its extension, so the target is the
      original file itself and the rename is refused. */
  lemma StemRenameRefused(existing: set<string>)
    requires "photo.jpg" in existing
    ensures Rename(existing, "photo.jpg", "photo", true) == Failure(TargetExists)
  {
    StemTargetsOriginal();
  }

  datatype Row = Row(name: string, width: int, height: int, sizeBytes: nat, lastModified: int)

  /** The table model's rows and the originalNames map. */
  datatype TableState = TableState(rows: seq<Row>, originalNames: map<int, string>)

  /** originalNames maps each row index to the name that row shows. */
  predicate Consistent(s: TableState)
  {
    (forall i :: i in s.originalNames ==> 0 <= i < |s.rows|)
    && forall i :: 0 <= i < |s.rows| ==> i in s.originalNames && s.originalNames[i] == s.rows[i].name
  }

  /** The table after the user typed a name into a row's cell: every other
      row still agrees with originalNames. */
  predicate EditedAt(s: TableState, row: int)
  {
    0 <= row < |s.rows|
    && (forall i :: i in s.originalNames ==> 0 <= i < |s.rows|)
    && (forall i :: 0 <= i < |s.rows| ==> i in s.originalNames)
    && forall i :: 0 <= i < |s.rows| && i != row ==> s.originalNames[i] == s.rows[i].name
  }

  /** handleNameChange for a row the listener found in originalNames: with the
      name changed it runs the rename, then the queued setValueAt puts the
      final name (success) or the original name (failure) back into the cell;
      only a success updates originalNames, and the original name is already
      there on failure. */
  function NameEdited(s: TableState, row: int, existing: set<string>, renameSucceeds: bool)
    : (r: (TableState, set<string>))
    requires 0 <= row < |s.rows| && row in s.originalNames
    ensures |r.0.rows| == |s.rows|
    ensures forall i :: 0 <= i < |s.rows| && i != row ==> r.0.rows[i] == s.rows[i]
    ensures r.0.originalNames == s.originalNames[row := r.0.rows[row].name]
    ensures s.originalNames[row] != s.rows[row].name ==>
              var rn := Rename(existing, s.originalNames[row], s.rows[row].name, renameSucceeds);
              r.1 == RenamedFolder(existing, s.originalNames[row], rn)
              && r.0.rows[row].name == (if rn.Success? then rn.value else s.originalNames[row])
    ensures s.originalNames[row] == s.rows[row].name ==> r == (s, existing)
  {
    var originalName := s.originalNames[row];
    var typed := s.rows[row].name;
    if originalName == typed then (s, existing)
    else
      var rn := Rename(existing, originalName, typed, renameSucceeds);
      var shown := if rn.Success? then rn.value else originalName;
      (TableState(s.rows[row := s.rows[row].(name := shown)], s.originalNames[row := shown]),
       RenamedFolder(existing, originalName, rn))
  }

  /** An edit of a table whose other rows agree with originalNames leaves
      originalNames matching every row again. */
  lemma NameEditRestoresConsistency(s: TableState, row: int, existing: set<string>, renameSucceeds: bool)
    requires EditedAt(s, row)
    ensures Consistent(NameEdited(s, row, existing, renameSucceeds).0)
  {
  }

  /** What one run of the table-model listener does for an UPDATE event. */
  datatype ListenerEffect =
    | NoEffect
    | NameChanged(table: TableState, folder: set<string>)
    | DateChanged(fileName: string, written: Option<Directory>)
    | NullOriginalName   // the NullPointerException of a row missing from originalNames

  /** The table-model listener for an update of cell (row, column). It checks
      only the row range, then reads originalNames at the row: a missing entry
      is null, which the name comparison and the date handler's File
      constructor dereference. The date cell's text is a parameter. */
  function CellUpdated(s: TableState, row: int, column: int, dateText: string,
                       existing: set<string>, renameSucceeds: bool): (u: ListenerEffect)
    ensures !(0 <= row < |s.rows|) || !IsCellEditable(row, column) ==> u == NoEffect
    ensures 0 <= row < |s.rows| && IsCellEditable(row, column) ==>
              (u == NullOriginalName <==> row !in s.originalNames)
    ensures column == NameColumn && 0 <= row < |s.rows| && row in s.originalNames ==>
              if s.originalNames[row] == s.rows[row].name then u == NoEffect
              else u.NameChanged? && (u.table, u.folder) == NameEdited(s, row, existing, renameSucceeds)
    ensures column == DateColumn && 0 <= row < |s.rows| && row in s.originalNames ==>
              u == DateChanged(s.originalNames[row], DateEdited(dateText))
  {
    if !(0 <= row < |s.rows|) || !IsCellEditable(row, column) then NoEffect
    else if row !in s.originalNames then NullOriginalName
    else if column == NameColumn then
      if s.originalNames[row] == s.rows[row].name then NoEffect
      else
        var (t, after) := NameEdited(s, row, existing, renameSucceeds);
        NameChanged(t, after)
    else DateChanged(s.originalNames[row], DateEdited(dateText))
  }

  /** Only the two editable columns have handlers: an update of any other
      column, or of a row outside the table, does nothing. */
  lemma OnlyEditableColumnsAct(s: TableState, row: int, column: int, dateText: string,
                               existing: set<string>, renameSucceeds: bool)
    ensures CellUpdated(s, row, column, dateText, existing, renameSucceeds) != NoEffect ==>
              0 <= row < |s.rows| && (column == NameColumn || column == DateColumn)
    ensures column in {WidthColumn, HeightColumn, SizeColumn} ==>
              CellUpdated(s, row, column, dateText, existing, renameSucceeds) == NoEffect
  {
  }

  /** The setValueAt that a name change queues fires the listener again, and
      that second run changes nothing. */
  lemma NameEditSettles(s: TableState, row: int, dateText: string, existing: set<string>,
                        renameSucceeds: bool, again: bool)
    ensures var u := CellUpdated(s, row, NameColumn, dateText, existing, renameSucceeds);
            u.NameChanged? ==> CellUpdated(u.table, row, NameColumn, dateText, u.folder, again) == NoEffect
  {
  }

  // ---------------------------------------------------------------------
  // The filter dialog's table refresh

  /** updateTableWithFilteredFiles: the rows are replaced by the filtered
      files and originalNames is left as the last folder load wrote it. */
  function ShowFiltered(s: TableState, shown: seq<Row>): (r: TableState)
    ensures r.rows == shown && r.originalNames == s.originalNames
  {
    s.(rows := shown)
  }

  function SampleRow(name: string, lastModified: int): Row
  {
    Row(name, 10, 10, 100, lastModified)
  }

  /** After filtering a two-image table down to its second image, editing the
      one row shown renames the hidden first image: the listener takes the
      name from originalNames, which still indexes the unfiltered rows. */
  lemma FilteredEditRenamesHiddenFile(dateText: string)
    ensures var s := TableState([SampleRow("a.jpg", 1), SampleRow("b.jpg", 2)], map[0 := "a.jpg", 1 := "b.jpg"]);
            var f := ShowFiltered(s, [SampleRow("b.jpg", 2)]);
            var edited := f.(rows := [SampleRow("c.jpg", 2)]);
            var u := CellUpdated(edited, 0, NameColumn, dateText, {"a.jpg", "b.jpg"}, true);
            Consistent(s) && u.NameChanged? && "a.jpg" !in u.folder && "b.jpg" in u.folder && "c.jpg" in u.folder
  {
    var s := TableState([SampleRow("a.jpg", 1), SampleRow("b.jpg", 2)], map[0 := "a.jpg", 1 := "b.jpg"]);
    assert Consistent(s);
    var edited := TableState([SampleRow("c.jpg", 2)], s.originalNames);
    assert edited == ShowFiltered(s, [SampleRow("b.jpg", 2)]).(rows := [SampleRow("c.jpg", 2)]);
    assert edited.originalNames[0] == "a.jpg" && edited.rows[0].name == "c.jpg";
    SampleNamesDistinct();
    SampleRenameSucceeds();
    var rn := Rename({"a.jpg", "b.jpg"}, "a.jpg", "c.jpg", true);
    assert RenamedFolder({"a.jpg", "b.jpg"}, "a.jpg", rn) == {"a.jpg", "b.jpg"} - {"a.jpg"} + {"c.jpg"};
  }

  lemma SampleNamesDistinct()
    ensures "a.jpg" != "b.jpg" && "a.jpg" != "c.jpg" && "b.jpg" != "c.jpg"
  {
    assert "a.jpg"[0] != "b.jpg"[0];
    assert "a.jpg"[0] != "c.jpg"[0];
    assert "b.jpg"[0] != "c.jpg"[0];
  }

  /** Renaming a.jpg to c.jpg in a folder of a.jpg and b.jpg succeeds. */
  lemma SampleRenameSucceeds()
    ensures Rename({"a.jpg", "b.jpg"}, "a.jpg", "c.jpg", true) == Success("c.jpg")
  {
    SampleNamesDistinct();
    assert "a.jpg"[1] == '.' && "a.jpg"[2] != '.' && "a.jpg"[3] != '.' && "a.jpg"[4] != '.';
    assert Extension("a.jpg") == ".jpg";
    assert EndsWith("c.jpg", ".jpg") by { assert "c.jpg"[1..] == ".jpg"; }
    assert FinalName("a.jpg", "c.jpg") == "c.jpg";
  }

  /** A filtered table longer than the last load has rows with no entry in
      originalNames; editing the name or the date of one throws. */
  lemma FilteredEditPastOldRowsFails(shown: seq<Row>, column: int, dateText: string,
                                     existing: set<string>, renameSucceeds: bool)
    requires |shown| == 2
    requires column == NameColumn || column == DateColumn
    ensures var s := TableState([shown[0]], map[0 := shown[0].name]);
            Consistent(s)
            && CellUpdated(ShowFiltered(s, shown), 1, column, dateText, existing, renameSucceeds) == NullOriginalName
  {
  }

  /** The refresh as evidently intended: originalNames is rebuilt for the rows
      shown, as the folder load does. */
  function ShowFilteredRebuilt(s: TableState, shown: seq<Row>): (r: TableState)
    ensures r.rows == shown && Consistent(r)
  {
    TableState(shown, map i | 0 <= i < |shown| :: shown[i].name)
  }

  /** After the rebuilt refresh, a name typed into a row renames the file that
      row shows, and a date typed into a row is written to that row's file. */
  lemma RebuiltEditTargetsShownFile(s: TableState, shown: seq<Row>, row: int, typed: string,
                                    dateText: string, existing: set<string>, renameSucceeds: bool)
    requires 0 <= row < |shown| && typed != shown[row].name
    ensures var t := ShowFilteredRebuilt(s, shown);
            var e := t.(rows := t.rows[row := t.rows[row].(name := typed)]);
            var u := CellUpdated(e, row, NameColumn, dateText, existing, renameSucceeds);
            && u.NameChanged?
            && u.folder == RenamedFolder(existing, shown[row].name, Rename(existing, shown[row].name, typed, renameSucceeds))
            && CellUpdated(t, row, DateColumn, dateText, existing, renameSucceeds)
               == DateChanged(shown[row].name, DateEdited(dateText))
  {
  }

  /** handleDateChange up to the metadata call: the edited text is parsed with
      the table's layout and the capture date is written with no dimensions.
      None is the DateTimeParseException path. */
  function DateEdited(dateText: string): (r: Option<Directory>)
    ensures r.Some? <==> Parse(dateText, TableSeparator).Some?
    ensures r.Some? ==>
              r.value.Keys == {DateTimeOriginal} && r.value[DateTimeOriginal].Ascii?
              && Parse(r.value[DateTimeOriginal].text, ExifSeparator) == Parse(dateText, TableSeparator)
  {
    match Parse(dateText, TableSeparator)
    case None => None
    case Some(d) => Some(UpdateMetadata(d, -1, -1))
  }

  /** A date shown in the table layout, committed unchanged, is written to the
      EXIF field as the same instant in the TIFF layout. */
  lemma DateEditKeepsShownDate(d: DateTime)
    requires Valid(d)
    ensures DateEdited(Format(d, TableSeparator)).Some?
    ensures DateEdited(Format(d, TableSeparator)).value[DateTimeOriginal] == Ascii(Format(d, ExifSeparator))
  {
    ParseFormat(d, TableSeparator);
    var text := UpdateMetadata(d, -1, -1)[DateTimeOriginal].text;
    FormatParse(text, ExifSeparator);
  }

  // ---------------------------------------------------------------------
  // Population in updateWithFolder's done()

  function RowOf(img: ImageInfo): (row: Row)
    ensures row.name == img.name && row.width == img.width && row.height == img.height
    ensures row.lastModified == img.lastModified
  {
    Row(img.name, img.width, img.height, img.sizeBytes, img.lastModified)
  }

  predicate SortedByModified(s: seq<ImageInfo>)
  {
    forall i, j :: 0 <= i < j < |s| ==> s[i].lastModified <= s[j].lastModified
  }

  /** The images with one lastModified value, in their order. */
  function WithModified(s: seq<ImageInfo>, t: int): (r: seq<ImageInfo>)
    ensures forall x :: x in r ==> x in s && x.lastModified == t
  {
    if |s| == 0 then []
    else if s[0].lastModified == t then [s[0]] + WithModified(s[1..], t)
    else WithModified(s[1..], t)
  }

  /** Inserts img before the first image not older than it. */
  function Insert(img: ImageInfo, s: seq<ImageInfo>): (r: seq<ImageInfo>)
    ensures |r| == |s| + 1
    ensures multiset(r) == multiset(s) + multiset{img}
  {
    if |s| == 0 then [img]
    else if img.lastModified <= s[0].lastModified then [img] + s
    else
      assert s == [s[0]] + s[1..];
      [s[0]] + Insert(img, s[1..])
  }

  /** Insertion keeps a sorted sequence sorted. */
  lemma {:induction false} InsertSorted(img: ImageInfo, s: seq<ImageInfo>)
    requires SortedByModified(s)
    ensures SortedByModified(Insert(img, s))
    ensures Insert(img, s)[0] == img || (|s| > 0 && Insert(img, s)[0] == s[0])
  {
    if |s| > 0 && img.lastModified > s[0].lastModified {
      var rest := Insert(img, s[1..]);
      assert SortedByModified(s[1..]);
      InsertSorted(img, s[1..]);
      assert s[0].lastModified <= rest[0].lastModified;
      assert forall j :: 0 <= j < |rest| ==> rest[0].lastModified <= rest[j].lastModified;
    }
  }

  /** Comparator.comparing(lastModified) with List.sort, which is stable. */
  function SortByModified(s: seq<ImageInfo>): (r: seq<ImageInfo>)
    ensures |r| == |s|
    ensures multiset(r) == multiset(s)
    ensures SortedByModified(r)
  {
    if |s| == 0 then []
    else
      assert s == [s[0]] + s[1..];
      var rest := SortByModified(s[1..]);
      InsertSorted(s[0], rest);
      Insert(s[0], rest)
  }

  lemma {:induction false} InsertKeepsEqualOrder(img: ImageInfo, s: seq<ImageInfo>, t: int)
    requires SortedByModified(s)
    ensures WithModified(Insert(img, s), t)
         == if img.lastModified == t then [img] + WithModified(s, t) else WithModified(s, t)
  {
    if |s| == 0 {
    } else if img.lastModified <= s[0].lastModified {
      assert ([img] + s)[1..] == s;
    } else {
      assert SortedByModified(s[1..]);
      InsertKeepsEqualOrder(img, s[1..], t);
      assert ([s[0]] + Insert(img, s[1..]))[1..] == Insert(img, s[1..]);
      if img.lastModified == t {
        assert s[0].lastModified != t;
        assert WithModified(s[1..], t) == WithModified(s, t);
      }
    }
  }

  /** Stability: images that share a lastModified keep their relative order. */
  lemma {:induction false} SortIsStable(s: seq<ImageInfo>, t: int)
    ensures WithModified(SortByModified(s), t) == WithModified(s, t)
  {
    if |s| > 0 {
      SortIsStable(s[1..], t);
      InsertKeepsEqualOrder(s[0], SortByModified(s[1..]), t);
    }
  }

  /** The rows, sorted by lastModified, and originalNames for them. */
  function Populate(images: seq<ImageInfo>): (s: TableState)
    ensures Consistent(s)
    ensures |s.rows| == |images|
    ensures forall i, j :: 0 <= i < j < |s.rows| ==> s.rows[i].lastModified <= s.rows[j].lastModified
    ensures var sorted := SortByModified(images);
            forall i :: 0 <= i < |s.rows| ==> s.rows[i] == RowOf(sorted[i])
  {
    var sorted := SortByModified(images);
    var rows := seq(|sorted|, i requires 0 <= i < |sorted| => RowOf(sorted[i]));
    TableState(rows, map i | 0 <= i < |rows| :: rows[i].name)
  }
}

=== FILE: text.dfy ===
/** The handful of java.lang.String operations the image library relies on. */
module Text {

  /** Lower-casing of one character. Only the ASCII letters A-Z are mapped;
      every file-name suffix the library compares against is ASCII. */
  function LowerChar(c: char): char
  {
    if 'A' <= c <= 'Z' then (c as int + 32) as char else c
  }

  /** String.toLowerCase, character by character. */
  function Lower(s: string): (r: string)
    ensures |r| == |s|
    ensures forall i :: 0 <= i < |s| ==> r[i] == LowerChar(s[i])
    ensures forall i :: 0 <= i < |s| ==> !('A' <= r[i] <= 'Z')
  {
    seq(|s|, i requires 0 <= i < |s| => LowerChar(s[i]))
  }

  /** String.endsWith. */
  predicate EndsWith(s: string, suffix: string)
  {
    |suffix| <= |s| && s[|s| - |suffix|..] == suffix
  }

  /** A suffix of a suffix is a suffix. */
  lemma EndsWithTrans(s: string, t: string, u: string)
    requires EndsWith(s, t) && EndsWith(t, u)
    ensures EndsWith(s, u)
  {
    assert s[|s| - |u|..] == t[|t| - |u|..];
  }

  /** String.lastIndexOf(char): -1 when c does not occur. */
  function LastIndexOf(s: string, c: char): (r: int)
    ensures -1 <= r < |s|
    ensures r >= 0 ==> s[r] == c
    ensures forall j :: r < j < |s| ==> s[j] != c
    decreases |s|
  {
    if |s| == 0 then -1
    else if s[|s| - 1] == c then |s| - 1
    else LastIndexOf(s[..|s| - 1], c)
  }

  /** The characters String.trim removes: every code point up to the space. */
  predicate IsTrimmed(c: char)
  {
    c as int <= 0x20
  }

  /** String.trim: drop trimmable characters from both ends. */
  function Trim(s: string): (r: string)
    ensures |r| == 0 || (!IsTrimmed(r[0]) && !IsTrimmed(r[|r| - 1]))
    ensures exists i, j :: 0 <= i <= j <= |s| && r == s[i..j]
                           && (forall k :: 0 <= k < i ==> IsTrimmed(s[k]))
                           && (forall k :: j <= k < |s| ==> IsTrimmed(s[k]))
  {
    var j := TrimEnd(s, |s|);
    var i := TrimStart(s, 0, j);
    s[i..j]
  }

  /** A text with no trimmable character at either end is its own trim. */
  lemma TrimFixed(s: string)
    requires |s| == 0 || (!IsTrimmed(s[0]) && !IsTrimmed(s[|s| - 1]))
    ensures Trim(s) == s
  {
    if |s| > 0 {
      assert TrimEnd(s, |s|) == |s|;
      assert TrimStart(s, 0, |s|) == 0;
      assert s[0..|s|] == s;
    }
  }

  /** String.trim applied twice is String.trim applied once. */
  lemma TrimIdempotent(s: string)
    ensures Trim(Trim(s)) == Trim(s)
  {
    TrimFixed(Trim(s));
  }

  /** The end of the text once trailing trimmable characters are dropped. */
  function TrimEnd(s: string, j: nat): (r: nat)
    requires j <= |s|
    ensures r <= j
    ensures r == 0 || !IsTrimmed(s[r - 1])
    ensures forall k :: r <= k < j ==> IsTrimmed(s[k])
  {
    if j == 0 || !IsTrimmed(s[j - 1]) then j else TrimEnd(s, j - 1)
  }

  /** The start of the text once leading trimmable characters are dropped. */
  function TrimStart(s: string, i: nat, j: nat): (r: nat)
    requires i <= j <= |s|
    requires j == 0 || !IsTrimmed(s[j - 1])
    ensures i <= r <= j
    ensures r == j || !IsTrimmed(s[r])
    ensures forall k :: i <= k < r ==> IsTrimmed(s[k])
    decreases j - i
  {
    if i == j || !IsTrimmed(s[i]) then i else TrimStart(s, i + 1, j)
  }

  /** Decimal digit of a value below ten. */
  function DigitChar(d: nat): (c: char)
    requires d < 10
    ensures '0' <= c <= '9'
    ensures c as int - '0' as int == d
  {
    (d + '0' as int) as char
  }

  predicate IsDigit(c: char)
  {
    '0' <= c <= '9'
  }

  function DigitValue(c: char): (d: nat)
    requires IsDigit(c)
    ensures d < 10
    ensures DigitChar(d) == c
  {
    c as int - '0' as int
  }

  /** The value of a string of decimal digits, most significant first. */
  function DecimalValue(s: string): nat
    requires forall i :: 0 <= i < |s| ==> IsDigit(s[i])
  {
    if |s| == 0 then 0 else 10 * DecimalValue(s[..|s| - 1]) + DigitValue(s[|s| - 1])
  }

  /** Long.toString for a non-negative value: its decimal digits, no leading zero. */
  function NatToString(n: nat): (r: string)
    ensures |r| > 0
    ensures forall i :: 0 <= i < |r| ==> IsDigit(r[i])
    ensures |r| == 1 || r[0] != '0'
  {
    if n < 10 then [DigitChar(n)] else NatToString(n / 10) + [DigitChar(n % 10)]
  }

  /** Reading the printed digits back gives the number. */
  lemma {:induction false} NatToStringRoundTrip(n: nat)
    ensures DecimalValue(NatToString(n)) == n
  {
    var r := NatToString(n);
    if n < 10 {
      assert r[..0] == [];
    } else {
      NatToStringRoundTrip(n / 10);
      assert r[..|r| - 1] == NatToString(n / 10);
    }
  }
}

=== FILE: wrappers.dfy ===
/** Failure-carrying datatypes shared by every module of the model. */
module Wrappers {

  /** A value that may be missing: Java's nullable references. */
  datatype Option<+T> = None | Some(value: T)

  /** A value or the reason it could not be produced: Java's checked exceptions. */
  datatype Result<+R, +E> = Success(value: R) | Failure(error: E)
}
